=== FILE: README.md ===
# Ractive repeated sections and item creation, in Dafny

This project models two parts of Ractive's virtual DOM.

The first is `RepeatedFragment`, the engine behind `{{#each ...}}`. A repeated section keeps one
child fragment, an *iteration*, per entry of the value it is bound to. For an array each iteration
is keyed by its index. For a plain object it is keyed by property name, in key order. Any other
value gives no iterations. The section keeps this list in step with the value through:

- `bind`: the first materialisation;
- `update`: a membership diff. It truncates an array, removes the iterations of missing keys, and
  appends iterations for new entries;
- a two-phase reorder. `shuffle` stores a permutation and a snapshot and moves the iterations;
  the next `update` runs `updatePostShuffle`, which destroys, rebinds or creates iterations and
  clears the pending state.

It also answers positional queries (`findNextNode`, `firstNode`, `find`, `findAll`), renders
itself as a string (`toString`) and rebinds its iterations to a new context (`rebind`).

The second is `createItem`, the factory that turns a template node into a render item. It
dispatches on the node's type tag.

The model is functional:

- The section state is an immutable `Binder` record.
- Each operation returns a `Step`: the new state plus an ordered log of `Event`s.
- An event creates, destroys, rebinds or refreshes a child fragment, inserts a batch of rendered
  children before an anchor, or tells the owner that the section changed (bubble).
- The list is a `seq<Option<Iteration>>`, because a shuffle can leave holes.
- A child fragment's identity is `Iteration.id`. Identities are handed out from `Binder.nextId`.
- `Effects.Summarize` reduces a log to one sequence per kind of event. Most properties are
  stated about that summary and the resulting list.

Modules:

- `Wrappers`: `Option` and `Result`.
- `Collection`: the bound value (`Arr(length) | Obj(keys) | Other`), keys and property names.
- `Scope`: `getRefs` and the splitting of a declared index alias.
- `Effects`: the event log and its summary.
- `RepeatedFragment`: the section state and every operation.
- `LogFacts`: lemmas about logs and identity runs.
- `BindProofs`, `UpdateProofs`, `ShuffleProofs` and `CompletionProofs`: one module per operation.
- `CycleProofs`: a shuffle by a full permutation followed by its completion.
- `NumberingProofs`: the identity invariant that every operation keeps.
- `UniqueProofs`: no identity is live twice, an invariant that every operation keeps.
- `Queries`: `findNextNode`, `firstNode`, `find`, `findAll`, `toString` and `rebind`.
- `Items`: `createItem` and its constructor table.

Two behaviours of the code are worth stating plainly, and the model follows the code in both:

- An iteration's index is stamped only when it is created (src/view/RepeatedFragment.js:88-89),
  so it can go stale:
  - An object update does not renumber the iterations that survive it, and it does not update
    the key index. `Queries.StaleIndexAfterRemoval` shows a case in which `findNextNode` then
    answers the owner's next node although another iteration follows.
  - Completing a shuffle rebinds a moved iteration (lines 312-314) but does not restamp its index.
    `CycleProofs.StaleIndexAfterShuffle` shows a rotation after which `findNextNode` answers the
    first node of an iteration two positions on.
- Completing a shuffle inserts one batch before each filled position that follows new iterations,
  plus a final batch before the owner's next node. `CompletionProofs.CompletionInserts` states
  where each batch goes. `CompletionProofs.CompletionLog` states that every new iteration is
  inserted exactly once, in creation order, across the batches.

## Model

The operations themselves are functions of `RepeatedFragment` and `Queries`, and their contracts
are the lemmas in the table below. Each function models these lines of
src/view/RepeatedFragment.js:

- `RepeatedFragment.Bind`: lines 40-69.
- `RepeatedFragment.MakeIteration`: `createIteration`, lines 75-94.
- `RepeatedFragment.Update`: lines 214-300.
- `RepeatedFragment.UpdateArray`: lines 227-230 and 267-280.
- `RepeatedFragment.UpdateKeyed`: lines 231-244 and 258-298.
- `RepeatedFragment.UpdateOther`: lines 245-255.
- `RepeatedFragment.Shuffle`: lines 175-196.
- `RepeatedFragment.UpdatePostShuffle`: lines 302-344.
- `RepeatedFragment.RebindAll`: lines 152-161.
- `Queries.FindNextNode`: lines 140-146.
- `Queries.FirstNode`: lines 148-150.
- `Queries.ToHtml`: lines 198-202.

`Items.CreateItem` models src/virtualdom/items/createItem.js:15-25.

| member | source | states |
|---|---|---|
| Scope.GetRefs | src/view/RepeatedFragment.js:5-19 | Without an alias name, the result is the enclosing scope itself. With one, it is the enclosing scope plus the alias bound to the value, and every other name keeps its value. |
| Scope.SplitSingle | src/view/RepeatedFragment.js:55-59 | An index alias without a comma becomes the key alias, and the index alias is left undefined. |
| Scope.SplitPair | src/view/RepeatedFragment.js:55-59 | The alias `k,i` gives key alias `k` and index alias `i`; any further comma-separated parts are ignored. |
| BindProofs.BindArray | src/view/RepeatedFragment.js:44-50 | Binding an array of length n gives exactly n iterations. Iteration i has key i and index i. They get consecutive new identities and are created in position order; nothing else happens. |
| BindProofs.IndexMapSpec | src/view/RepeatedFragment.js:61-63 | For distinct keys, the key index holds exactly the keys, each mapped to its position. |
| BindProofs.BindObject | src/view/RepeatedFragment.js:53-65 | Binding an object gives one iteration per key, in key order, with index equal to position and new identities created in order. The key index maps each key to its position. A declared index alias is split into key alias and index alias. |
| BindProofs.BindObjectSingleAlias | src/view/RepeatedFragment.js:55-65 | With an alias without a comma, each iteration sees its key under that alias and inherits the enclosing index scope unchanged. |
| BindProofs.BindOther | src/view/RepeatedFragment.js:40-69 | On a newly constructed section, binding a non-collection leaves no iterations and no effects. |
| BindProofs.CreateIterationScopes | src/view/RepeatedFragment.js:75-94 | This contract is the definition of `createIteration`, which promises nothing beyond it. A new iteration carries the given identity, key and index, and is not dirty. Its key and index scopes are the enclosing ones extended by the declared alias, or shared when no alias is declared. |
| UpdateProofs.UpdateArrayShrink | src/view/RepeatedFragment.js:227-230 | An array shorter than the list keeps exactly the first n iterations, as the same instances. It destroys each other live iteration once, in position order, refreshes the kept ones, and creates nothing. |
| UpdateProofs.UpdateArrayGrow | src/view/RepeatedFragment.js:267-280 | An array at least as long as the list keeps every iteration. It appends one iteration per new position, with key and index equal to that position and consecutive new identities, and removes nothing. It makes one insert of the new output before the parent's next node, and only when something was appended. |
| UpdateProofs.UpdateArrayMirrors | src/view/RepeatedFragment.js:227-280 | If the list mirrors an array of any length, it mirrors the new array after an array update: one live iteration per position, stamped with that position. |
| UpdateProofs.UpdateOtherRemovesAll | src/view/RepeatedFragment.js:245-255 | A value that is neither array nor object empties the list. Each live iteration is destroyed once, in position order, and nothing is created or inserted. |
| UpdateProofs.SurvivorsPartition | src/view/RepeatedFragment.js:234-244 | The backward scan splits the iterations, as a multiset, into survivors whose key is in the object and removed ones whose key is not. |
| UpdateProofs.NewKeysSpec | src/view/RepeatedFragment.js:283-284 | A key is added exactly when it is in the object and no survivor has it; distinct keys stay distinct. |
| UpdateProofs.UpdateKeyedRemoves | src/view/RepeatedFragment.js:231-258 | An object update destroys exactly the iterations whose key is gone, last position first. The survivors stay first, in their original order, as the same instances with their index unchanged, and each is refreshed. The key index is left as it was. |
| UpdateProofs.UpdateKeyedAppends | src/view/RepeatedFragment.js:261-298 | After the survivors, an object update appends one new iteration per key that no survivor has, in key order, indexed from the survivor count upward, with consecutive new identities. It makes one insert before the parent's next node, and none when the survivors already number as many as the keys. |
| UpdateProofs.UpdateKeyedCovers | src/view/RepeatedFragment.js:231-298 | After an object update, every iteration's name is a key of the object. When anything was appended, every key of the object has an iteration. |
| UpdateProofs.KeyedStable | src/view/RepeatedFragment.js:231-267 | A list whose keys are all in the object, and that is at least as long as the key list, is left unchanged by an object update; the only effect is one refresh per iteration. |
| UpdateProofs.IdempotentArray | src/view/RepeatedFragment.js:227-280 | A second array update with the same length keeps the list and destroys, creates and inserts nothing. |
| UpdateProofs.IdempotentKeyed | src/view/RepeatedFragment.js:231-298 | A second object update with the same distinct keys keeps the list and destroys, creates and inserts nothing. |
| UpdateProofs.IdempotentOther | src/view/RepeatedFragment.js:245-255 | A second update with a non-collection value does nothing. |
| UpdateProofs.UpdateIdempotent | src/view/RepeatedFragment.js:214-300 | With no shuffle pending, a second update with the same value keeps the list and destroys, creates and inserts nothing. |
| ShuffleProofs.PlaceLands | src/view/RepeatedFragment.js:183-192 | Each iteration with a new position lands there as the same instance; it is marked dirty exactly when its position changed. |
| ShuffleProofs.PlaceHoles | src/view/RepeatedFragment.js:183-192 | Every filled slot of the new list is the new position of some iteration, and every other slot is a hole. |
| ShuffleProofs.PlaceEnds | src/view/RepeatedFragment.js:183-192 | The new list ends at the largest new position: its last slot is filled. |
| ShuffleProofs.ShuffleRecords | src/view/RepeatedFragment.js:175-196 | A shuffle with nothing pending succeeds and records the permutation and a snapshot of the list. It moves each kept iteration to its new position, dirty exactly when it moved, drops the -1 entries, and tells the owner once. It rebinds, creates, destroys and inserts nothing. |
| ShuffleProofs.ShuffleTwiceFails | src/view/RepeatedFragment.js:176-178 | A second shuffle before the first is completed throws "Section was already shuffled!", whatever its permutation. |
| ShuffleProofs.ShuffleRotates | src/view/RepeatedFragment.js:175-196 | The rotation [2, 0, 1] on [a, b, c] gives [b, c, a]: the same instances, all marked dirty, with one bubble as the whole log. |
| CompletionProofs.FillSpec | src/view/RepeatedFragment.js:322-335 | The creation walk keeps the originals, fills every empty slot below the length with a new iteration for that position, and creates identities consecutively. Every created iteration is inserted once, in order, or is still queued. |
| CompletionProofs.RetireCounts | src/view/RepeatedFragment.js:308-316 | Retiring the snapshot makes one destroy or rebind per snapshot entry, and nothing else. |
| CompletionProofs.RetireDestroys | src/view/RepeatedFragment.js:308-313 | An identity is destroyed exactly when it belongs to a snapshot iteration whose entry is -1. |
| CompletionProofs.RetireRebinds | src/view/RepeatedFragment.js:308-316 | A pair (identity, position) is rebound exactly when a snapshot iteration with that identity moves to that position. |
| CompletionProofs.CompletionList | src/view/RepeatedFragment.js:318-343 | After completion nothing is pending. Every slot below the new length is filled. Each iteration present before stays where it was, and so does everything past the new length. Each former hole holds a new iteration for its position, with an identity not handed out before. |
| CompletionProofs.CompletionLog | src/view/RepeatedFragment.js:302-344 | Completion destroys and rebinds exactly what retiring the snapshot does. It creates one new iteration per position below the array's length that was empty, with consecutive new identities in position order. It inserts every created iteration exactly once, in creation order, refreshes every live iteration once in position order, and does not bubble. |
| CompletionProofs.CompletionHoles | src/view/RepeatedFragment.js:318-332 | The k-th empty position below the array's length gets the k-th new identity. The next identity advances by exactly the number of such positions, and the created identities are those of the filled holes, in position order. |
| CompletionProofs.CompletionInserts | src/view/RepeatedFragment.js:320-341 | Every inserted batch is non-empty. A batch placed before a first node holds exactly the new iterations of the run of holes just before a position that was filled already, and goes before that iteration's first node. Only the last batch may go before the owner's next node, and it then holds the run of new iterations that ends the array. |
| CycleProofs.PermutationCovers | src/view/RepeatedFragment.js:185-189 | A permutation of all positions names every position. |
| CycleProofs.ShufflePermutes | src/view/RepeatedFragment.js:175-196 | A shuffle by a full permutation leaves no holes, with each iteration at its new position. |
| CycleProofs.CompleteDense | src/view/RepeatedFragment.js:302-344 | Completing a shuffle that had no -1 entry and left no holes, for an array of the same length, keeps the list and creates, destroys and inserts nothing; it rebinds the snapshot and refreshes each iteration. |
| CycleProofs.PermutationCycle | src/view/RepeatedFragment.js:175-196 | A full permutation followed by the next update leaves each iteration at its new position, as the same instance. Every iteration is rebound to exactly its new position and refreshed, and nothing is created, destroyed or inserted. |
| NumberingProofs.BindNumbers | src/view/RepeatedFragment.js:40-69 | Bind keeps every live identity, in the list and in the snapshot, below the next identity to hand out. |
| NumberingProofs.UpdateArrayNumbers | src/view/RepeatedFragment.js:227-280 | An array update keeps every live identity below the next one to hand out. |
| NumberingProofs.UpdateKeyedNumbers | src/view/RepeatedFragment.js:231-298 | An object update keeps every live identity below the next one to hand out. |
| NumberingProofs.UpdateOtherNumbers | src/view/RepeatedFragment.js:245-248 | A non-collection update keeps every live identity below the next one to hand out. |
| NumberingProofs.ShuffleNumbers | src/view/RepeatedFragment.js:175-196 | A shuffle keeps every live identity below the next one to hand out. |
| NumberingProofs.CompletionNumbers | src/view/RepeatedFragment.js:302-344 | Completion keeps every live identity below the next one to hand out. |
| NumberingProofs.CompletionCreatesNew | src/view/RepeatedFragment.js:308-335 | No iteration that completion creates has the identity of a snapshot iteration: a rebound iteration is never recreated. |
| NumberingProofs.CompletionThenShuffle | src/view/RepeatedFragment.js:343 | After completion a new shuffle is accepted. |
| UniqueProofs.BindUnique | src/view/RepeatedFragment.js:40-69 | After bind no two live iterations share an identity, in the list or in the snapshot. |
| UniqueProofs.UpdateArrayUnique | src/view/RepeatedFragment.js:227-280 | An array update keeps live identities unique, given that every live identity is below the next one to hand out. |
| UniqueProofs.SurvivorsUnique | src/view/RepeatedFragment.js:234-244 | The iterations the backward scan keeps are iterations of the list, and keep their identities distinct. |
| UniqueProofs.UpdateKeyedUnique | src/view/RepeatedFragment.js:231-298 | An object update keeps live identities unique, given that every live identity is below the next one to hand out. |
| UniqueProofs.UpdateOtherUnique | src/view/RepeatedFragment.js:245-248 | A non-collection update keeps live identities unique. |
| UniqueProofs.ShuffleUnique | src/view/RepeatedFragment.js:175-196 | A shuffle keeps live identities unique, in the moved list and in the snapshot. |
| UniqueProofs.CompletionUnique | src/view/RepeatedFragment.js:318-343 | Completion keeps live identities unique, given that every live identity is below the next one to hand out. |
| UniqueProofs.RetireOnce | src/view/RepeatedFragment.js:308-316 | With distinct snapshot identities, retiring destroys no identity twice and rebinds no identity twice, to the same position or to different ones. |
| UniqueProofs.RetireRebindsOnce | src/view/RepeatedFragment.js:308-316 | With distinct snapshot identities, no identity is rebound twice, whatever the positions. |
| UniqueProofs.CompletionOnce | src/view/RepeatedFragment.js:302-344 | With distinct snapshot identities, completion destroys no iteration twice, rebinds none twice (even to different positions) and creates no identity twice. |
| Queries.NextNodeInOrder | src/view/RepeatedFragment.js:140-146 | While the list mirrors its value, the node after the iteration at position k is the first node of the iteration at k+1, and the owner's next node after the last one. |
| CycleProofs.StaleIndexAfterShuffle | src/view/RepeatedFragment.js:140-146 | After the rotation [2, 0, 1] of three iterations and its completion, the iteration at position 0 still has index 1, so the node after it is taken to be the first node of the iteration at position 2, not of the one at position 1. |
| Queries.StaleIndexAfterRemoval | src/view/RepeatedFragment.js:140-146 | After an object update removes the first key, the survivor at position 0 still has index 1, so the node after it is taken to be the owner's next node. |
| Queries.FirstNodeInOrder | src/view/RepeatedFragment.js:148-150 | While the list mirrors its value, the section has a first node exactly when the value has an entry, and it is the first node of the iteration for entry 0. |
| Queries.Find | src/view/RepeatedFragment.js:102-110 | For a list whose search reaches no hole before its first hit (holes after it are never read), the first result of the query over the iterations in position order. It is none exactly when every slot is live and none has a result; otherwise it is the result of a live iteration before which every slot was live with no result. |
| Queries.FindAll | src/view/RepeatedFragment.js:112-119 | The given results followed by what each iteration finds, in position order. |
| Queries.CollectAppend | src/view/RepeatedFragment.js:112-119 | What a query finds over a concatenation is what it finds over each part, in order. |
| Queries.ToHtmlAppend | src/view/RepeatedFragment.js:198-202 | The string of a concatenation is the strings of its parts, joined. |
| Queries.ToHtmlOne | src/view/RepeatedFragment.js:198-202 | One iteration contributes its escaped or plain string, as requested, and a hole contributes nothing. |
| Queries.ToHtmlSkipsHole | src/view/RepeatedFragment.js:198-202 | Removing a hole from the list does not change the string. |
| Queries.RebindFromSpec | src/view/RepeatedFragment.js:156-160 | Rebinding rebinds exactly the live iterations, once each, each to the model at its position, and does nothing else. |
| Queries.RebindAllSpec | src/view/RepeatedFragment.js:152-161 | Rebinding to an array rebinds each live iteration to its position. Rebinding to any other value does nothing. |
| Items.CreateItem | src/virtualdom/items/createItem.js:15-25 | A string template gives a text item holding that string. A failure carries the message "Unrecognised item type " followed by the tag. |
| Items.ConstructorTable | src/virtualdom/items/createItem.js:8-13 | The table holds exactly the four tags, and each maps to a different kind. |
| Items.CreateItemDispatch | src/virtualdom/items/createItem.js:20-24 | A node template with tag ELEMENT, INTERPOLATOR, PARTIAL or SECTION gives an item of the matching kind, built from the same options. It succeeds exactly for those four tags. |
| Items.CreateItemDeterministic | src/virtualdom/items/createItem.js:8-24 | Two node templates with the same tag both succeed with the same kind of item, or both fail with the same error. |
| Items.StringTemplates | src/virtualdom/items/createItem.js:16-18 | Any string template gives a text item holding that string. |
| Items.UnknownTag | src/virtualdom/items/createItem.js:20-22 | Tag 3 is not in the table, and fails with "Unrecognised item type 3". |

## Left out

- Document work is not modelled: document fragments, `appendChild`, `insertBefore`, `render` and
  `detach`. Each insertion is an `Insert` event carrying the batch of child identities and an anchor.
  Whether a document fragment has child nodes is modelled as whether any rendered child is queued.
  A child whose render output is empty therefore counts as queued.
- The child fragments (`Fragment`) and the items built by `createItem` are opaque: their bind,
  rebind, update, unbind, unrender and `firstNode` are events or anchors.
- A child's `firstNode` is taken to exist. The code can find none for a child that renders nothing.
- `unbind` and `unrender` of the whole section only delegate to each iteration; they are not
  modelled. `Destroy` is the pair unbind then `unrender(true)` that update and completion apply.
- `bubble` propagation and the owner chain are not modelled; `Bubble` records that the owner was told.
- JavaScript value semantics are not modelled: `isArray`, `isObject`, the prototype chain that the
  `in` operator consults, and the engine's `Object.keys` order. An object is a sequence of distinct
  own keys, and a key is found by its property name (an array index by its decimal string).
- Completion reads the value's `length`, which the model takes as 0 for anything but an array.
  The code throws there for `null` and `undefined`. It takes a string's length for a string, the
  value of an object's own `length` property, and a function's number of declared parameters.
  None of these is modelled.
- `findComponent` and `findAllComponents` are the same in-order delegation as `find` and `findAll`.
  `Queries.Find` and `Queries.FindAll` model all four through an abstract query.
- The escaping done by `toString` and `toEscapedString` is not modelled; they are function parameters.
- The context model and `joinKey` are not modelled. `Create` and `Rebind` events carry the key or
  position that the child is joined at.
- The `dirty` flag that shuffle sets is never cleared in this code. The model keeps it set.
- The numeric values of the tags are those of Ractive's template type table. The module that defines
  them (config/types.js) is not part of this model; only their being distinct matters.
- UpdateProofs.UpdateKeyedCovers: states that every key has an iteration only when the update
  appended something. Otherwise it states only that no other name is present.
- UpdateProofs.IdempotentKeyed: assumes distinct keys, as `Object.keys` gives.
- Keyed update requires a list without holes. The code reads `fragment.key` of every entry and
  throws on a hole. A list can keep holes past the array's length after a completion, so this
  failing run is real and is not modelled.
- Shuffle requires a list without holes. The code's shuffle throws on a hole only when the hole's
  entry is neither -1 nor its own position, since only then does it set `fragment.dirty`. For any
  other hole the shuffle succeeds and the throw comes at completion, which calls `unbind` or
  `rebind` on every snapshot entry. Neither failing run is modelled, and completion requires a
  snapshot without holes.
- Shuffle requires exactly one entry per iteration, which the code does not check. With fewer
  entries, the unlisted iterations drop out of the list and are never unbound. With more, the
  extra entries read past the end of the list. Neither case is modelled.
- Binding a value that is neither an array nor an object, on a newly constructed section, leaves
  the code's list undefined. After that, an update with an array or object, a shuffle, `find`,
  `findAll`, `findNextNode`, `firstNode` and a rebind to an array all throw. The model keeps the
  empty list of a newly constructed section instead, and carries on from it. On a section that
  was bound before, the code keeps the earlier list, and so does the model.
- Queries.Find: requires that every slot the search reaches before its first hit be live; the code
  throws on a hole it reaches before any hit, and that failing run is not modelled.
- Queries.FindAll: requires a list without holes; the code throws on a hole.
- Queries.FindNextNode: requires a live iteration after the given one when there is a next
  position; the code throws on a hole there.
- Shuffle's snapshot is, in the code, a shallow copy that shares the iteration objects, so the
  `dirty` flags that shuffle then sets show in the snapshot too. The model's snapshot keeps the
  flags from before the shuffle. Only the snapshot's identities are read afterwards, so no effect
  differs.
- Completion never moves the nodes of iterations that a shuffle moved; the code marks this as a
  TODO at src/view/RepeatedFragment.js:307. So a reorder by a full permutation rebinds and
  refreshes but inserts nothing, as `CycleProofs.PermutationCycle` states.

=== FILE: bind_proofs.dfy ===
/** What bind leaves behind. */
module BindProofs {
  import opened Wrappers
  import opened Collection
  import opened Scope
  import opened Effects
  import opened RepeatedFragment
  import opened LogFacts

  /** Binding an array of length n makes exactly n iterations, iteration i
      with key i and index i (holes of a sparse array included), each a
      new child fragment, created in position order; nothing is removed or
      inserted. */
  lemma BindArray(b: Binder, n: nat)
    ensures var s := Bind(b, Arr(n));
      && Mirrors(s.binder.iterations, Arr(n))
      && LiveIds(s.binder.iterations) == Range(b.nextId, n)
      && Summarize(s.log) == Nothing.(created := Range(b.nextId, n))
      && s.binder.nextId == b.nextId + n
      && s.binder.pending == b.pending
      && s.binder.keyRef == b.keyRef && s.binder.indexRef == b.indexRef
  {
    var run := ArrayRun(b, 0, n);
    LiveIdsSomes(run);
    SummarizeCreateEvents(run);
    IdsArrayRun(b, 0, n);
  }

  /** The key index holds exactly the keys. */
  lemma {:induction false} IndexMapKeys(keys: seq<string>)
    ensures IndexMap(keys).Keys == Elements(keys)
    decreases |keys|
  {
    if |keys| > 0 {
      var init := keys[..|keys| - 1];
      IndexMapKeys(init);
      assert keys == init + [keys[|keys| - 1]];
      assert Elements(keys) == Elements(init) + {keys[|keys| - 1]};
    }
  }

  /** With distinct keys, each key is mapped to its own position. */
  lemma {:induction false} IndexMapValues(keys: seq<string>)
    requires Distinct(keys)
    ensures forall i | 0 <= i < |keys| :: keys[i] in IndexMap(keys) && IndexMap(keys)[keys[i]] == i
    decreases |keys|
  {
    if |keys| > 0 {
      var last := |keys| - 1;
      var init := keys[..last];
      assert Distinct(init) by {
        forall i, j | 0 <= i < j < |init| ensures init[i] != init[j] {
          assert init[i] == keys[i] && init[j] == keys[j];
        }
      }
      IndexMapValues(init);
      forall i | 0 <= i < last ensures keys[i] in IndexMap(keys) && IndexMap(keys)[keys[i]] == i {
        assert keys[i] == init[i] && keys[i] != keys[last];
      }
    }
  }

  /** Position of every key in the key index, and nothing else in it. */
  lemma IndexMapSpec(keys: seq<string>)
    requires Distinct(keys)
    ensures IndexMap(keys).Keys == Elements(keys)
    ensures forall i | 0 <= i < |keys| :: IndexMap(keys)[keys[i]] == i
  {
    IndexMapKeys(keys);
    IndexMapValues(keys);
  }

  /** Binding an object makes one iteration per own key in key order,
      indexed by position, records every key's position in the key index,
      and splits a declared index alias into key and index aliases. */
  lemma BindObject(b: Binder, keys: seq<string>)
    requires Distinct(keys)
    ensures var s := Bind(b, Obj(keys));
      && Mirrors(s.binder.iterations, Obj(keys))
      && LiveIds(s.binder.iterations) == Range(b.nextId, |keys|)
      && Summarize(s.log) == Nothing.(created := Range(b.nextId, |keys|))
      && s.binder.indexByKey.Some?
      && s.binder.indexByKey.value.Keys == Elements(keys)
      && (forall i | 0 <= i < |keys| :: s.binder.indexByKey.value[keys[i]] == i)
      && (Named(b.indexRef) ==> (s.binder.keyRef, s.binder.indexRef) == SplitAlias(b.indexRef.value))
      && (!Named(b.indexRef) ==> s.binder.keyRef == b.keyRef && s.binder.indexRef == b.indexRef)
      && s.binder.pending == b.pending
  {
    var run := KeyRun(ObjectAliases(b), keys, 0);
    LiveIdsSomes(run);
    SummarizeCreateEvents(run);
    IdsKeyRun(ObjectAliases(b), keys, 0);
    IndexMapSpec(keys);
  }

  /** An index alias without a comma becomes the key alias: every
      iteration sees its key under that name, and no index alias is
      defined, so the index scope is the enclosing one. */
  lemma BindObjectSingleAlias(b: Binder, keys: seq<string>, alias: string)
    requires b.indexRef == Some(alias) && alias != "" && ',' !in alias
    ensures var s := Bind(b, Obj(keys));
      && s.binder.keyRef == Some(alias) && s.binder.indexRef == None
      && forall i | 0 <= i < |keys| ::
           s.binder.iterations[i].value.keyRefs[alias] == Name(keys[i])
           && s.binder.iterations[i].value.indexRefs == b.outerIndexRefs
  {
    SplitSingle(alias);
  }

  /** A non-collection binds nothing: the list is left as it was (empty on
      a newly constructed section) and no effect happens. */
  lemma BindOther(b: Binder)
    requires Constructed(b)
    ensures var s := Bind(b, Other);
      s.binder.iterations == [] && Mirrors(s.binder.iterations, Other) && s.log == []
  {
  }

  /** The alias scopes of a new iteration: with an alias declared, the
      enclosing scope plus that alias bound to the key (or index); without
      one, the enclosing scope itself. */
  lemma CreateIterationScopes(b: Binder, id: nat, key: Key, index: nat)
    ensures var u := MakeIteration(b, id, key, index);
      && u.id == id && u.key == key && u.index == index && !u.dirty
      && (Named(b.keyRef) ==> u.keyRefs == b.outerKeyRefs[b.keyRef.value := key])
      && (!Named(b.keyRef) ==> u.keyRefs == b.outerKeyRefs)
      && (Named(b.indexRef) ==> u.indexRefs == b.outerIndexRefs[b.indexRef.value := index])
      && (!Named(b.indexRef) ==> u.indexRefs == b.outerIndexRefs)
  {
  }
}

=== FILE: collection.dfy ===
/** The value a repeated section is bound to, as the section sees it: an
    array (only its length matters here), a plain object (its own keys in
    enumeration order), or any other value. */
module Collection {

  /** The key of one entry: an array position, or a property name. */
  datatype Key = Index(i: nat) | Name(s: string)

  datatype Value = Arr(length: nat) | Obj(keys: seq<string>) | Other

  predicate Distinct<T(==)>(s: seq<T>) {
    forall i, j | 0 <= i < j < |s| :: s[i] != s[j]
  }

  /** `Object.keys` never lists a property twice. */
  predicate ValidValue(v: Value) {
    v.Obj? ==> Distinct(v.keys)
  }

  function DigitChar(d: nat): char
    requires d < 10
  {
    "0123456789"[d]
  }

  /** Decimal form of a number, as JavaScript converts a number to a string. */
  function NatToString(n: nat): (r: string)
    ensures |r| > 0
    decreases n
  {
    if n < 10 then [DigitChar(n)] else NatToString(n / 10) + [DigitChar(n % 10)]
  }

  function IntToString(n: int): string {
    if n < 0 then "-" + NatToString(-n) else NatToString(n)
  }

  /** The property name that `key in object` looks up: a numeric key is
      converted to its decimal form, so `Index(3)` and `Name("3")` meet. */
  function KeyName(k: Key): string {
    match k
    case Index(i) => NatToString(i)
    case Name(s) => s
  }

  /** `key in value` on a plain object, counting own properties only. */
  predicate HasKey(keys: seq<string>, k: Key) {
    KeyName(k) in keys
  }

  /** The `length` the shuffle-completion path reads from the value; only
      an array has one here. */
  function ArrayLength(v: Value): nat {
    if v.Arr? then v.length else 0
  }

  /** A concatenation splits back into its parts. */
  lemma SplitAppend<T>(a: seq<T>, c: seq<T>)
    ensures (a + c)[..|a|] == a && (a + c)[|a|..] == c
  {
  }

  /** The tail of a distinct sequence is distinct and lacks the head. */
  lemma DistinctTail<T>(s: seq<T>)
    requires Distinct(s) && |s| > 0
    ensures Distinct(s[1..]) && s[0] !in s[1..]
  {
    var t := s[1..];
    forall i, j | 0 <= i < j < |t| ensures t[i] != t[j] {
      assert t[i] == s[i + 1] && t[j] == s[j + 1];
    }
    forall j | 0 <= j < |t| ensures t[j] != s[0] {
      assert t[j] == s[j + 1];
    }
  }

  /** A new element in front of a distinct sequence keeps it distinct. */
  lemma DistinctCons<T>(x: T, s: seq<T>)
    requires Distinct(s) && x !in s
    ensures Distinct([x] + s)
  {
    var r := [x] + s;
    forall i, j | 0 <= i < j < |r| ensures r[i] != r[j] {
      assert r[j] == s[j - 1];
      if i > 0 {
        assert r[i] == s[i - 1];
      }
    }
  }

  /** The set of a sequence's elements. */
  function Elements<T>(s: seq<T>): set<T> {
    set x | x in s
  }

  /** Distinct sequences have as many elements as their set. */
  lemma {:induction false} DistinctCard<T>(s: seq<T>)
    requires Distinct(s)
    ensures |Elements(s)| == |s|
  {
    if |s| > 0 {
      var t := s[1..];
      assert Distinct(t) by {
        forall i, j | 0 <= i < j < |t| ensures t[i] != t[j] {
          assert t[i] == s[i + 1] && t[j] == s[j + 1];
        }
      }
      DistinctCard(t);
      assert Elements(s) == Elements(t) + {s[0]};
      assert s[0] !in Elements(t) by {
        forall k | 0 <= k < |t| ensures t[k] != s[0] {
          assert t[k] == s[k + 1];
        }
      }
    }
  }
}

=== FILE: completion_proofs.dfy ===
/** What the second phase of a reorder, run by the next update, does. */
module CompletionProofs {
  import opened Wrappers
  import opened Collection
  import opened Effects
  import opened RepeatedFragment
  import opened LogFacts

  /** An iteration the creation walk made for position `j`, with an
      identity in [lo, hi). */
  predicate Made(b: Binder, x: Option<Iteration>, j: nat, lo: nat, hi: nat) {
    x.Some? && x.value == MakeIteration(b, x.value.id, Index(j), j) && lo <= x.value.id < hi
  }

  /** The creation walk after positions 0 .. i-1, started on the list
      `orig` with next identity `id0`: the list is as long as the longer
      of the two; positions from i on are untouched; below i every slot is
      filled, an occupied one with its original iteration and a hole with
      a new one; the log holds one creation per new identity, in order,
      and nothing else but inserts; and the inserted batches followed by
      the queue are exactly the new identities, in order. */
  ghost predicate WalkInv(b: Binder, orig: seq<Option<Iteration>>, id0: nat, i: nat, w: Walk) {
    ListInv(b, orig, id0, i, w) && LogInv(id0, w)
  }

  /** Position j is empty in the list the walk started on. */
  predicate Hole(orig: seq<Option<Iteration>>, j: nat) {
    j >= |orig| || orig[j].None?
  }

  /** The number of empty positions below j. */
  function HoleCount(orig: seq<Option<Iteration>>, j: nat): nat {
    if j == 0 then 0 else HoleCount(orig, j - 1) + (if Hole(orig, j - 1) then 1 else 0)
  }

  /** The identities that `r` holds at the positions below j that were
      empty in `orig`, in position order. */
  function HoleIds(r: seq<Option<Iteration>>, orig: seq<Option<Iteration>>, j: nat): seq<nat>
    requires j <= |r|
  {
    if j == 0 then []
    else HoleIds(r, orig, j - 1) + (if Hole(orig, j - 1) && r[j - 1].Some? then [r[j - 1].value.id] else [])
  }

  /** The k-th empty position gets the k-th new identity. */
  ghost predicate NumberInv(orig: seq<Option<Iteration>>, id0: nat, i: nat, w: Walk) {
    && w.nextId == id0 + HoleCount(orig, i)
    && forall j | 0 <= j < i && Hole(orig, j) ::
         j < |w.iterations| && w.iterations[j].Some? && w.iterations[j].value.id == id0 + HoleCount(orig, j)
  }

  /** `ids` are the identities `r` holds at the run of formerly empty
      positions that ends just before p and starts at 0 or just after a
      filled one. */
  predicate RunBefore(r: seq<Option<Iteration>>, orig: seq<Option<Iteration>>, p: nat, ids: seq<nat>) {
    && |ids| <= p <= |r|
    && (forall j | p - |ids| <= j < p ::
          Hole(orig, j) && r[j].Some? && r[j].value.id == ids[j - (p - |ids|)])
    && (p == |ids| || !Hole(orig, p - |ids| - 1))
  }

  /** A batch inserted before the first node of the iteration that filled
      some position below `upto` from the start: the batch is the run of
      new iterations just before that position. */
  ghost predicate FlushedBefore(r: seq<Option<Iteration>>, orig: seq<Option<Iteration>>, upto: nat, x: (seq<nat>, Anchor)) {
    exists p :: 0 <= p < upto && p < |orig| && orig[p].Some? && x.1 == FirstNodeOf(orig[p].value.id) && RunBefore(r, orig, p, x.0)
  }

  /** The queue holds the run of new iterations just before the walk's
      position, and every batch inserted so far is a non-empty run flushed
      before an earlier filled position. */
  ghost predicate BatchInv(orig: seq<Option<Iteration>>, i: nat, w: Walk) {
    && RunBefore(w.iterations, orig, i, w.queued)
    && forall k | 0 <= k < |Summarize(w.log).inserts| ::
         |Summarize(w.log).inserts[k].0| > 0 && FlushedBefore(w.iterations, orig, i, Summarize(w.log).inserts[k])
  }

  ghost predicate ListInv(b: Binder, orig: seq<Option<Iteration>>, id0: nat, i: nat, w: Walk) {
    && |w.iterations| == (if i <= |orig| then |orig| else i)
    && (forall j | i <= j < |orig| :: w.iterations[j] == orig[j])
    && (forall j | 0 <= j < i && j < |orig| && orig[j].Some? :: w.iterations[j] == orig[j])
    && (forall j | 0 <= j < i && (j >= |orig| || orig[j].None?) :: Made(b, w.iterations[j], j, id0, w.nextId))
    && id0 <= w.nextId
  }

  ghost predicate LogInv(id0: nat, w: Walk) {
    && id0 <= w.nextId
    && Summarize(w.log) == Nothing.(created := Range(id0, w.nextId - id0), inserts := Summarize(w.log).inserts)
    && Flatten(Summarize(w.log).inserts) + w.queued == Range(id0, w.nextId - id0)
  }

  lemma WalkStart(b: Binder, orig: seq<Option<Iteration>>, id0: nat)
    ensures WalkInv(b, orig, id0, 0, Walk(orig, [], [], id0))
  {
  }

  /** An occupied slot flushes the queue before its iteration. */
  lemma VisitOccupied(b: Binder, orig: seq<Option<Iteration>>, id0: nat, i: nat, w: Walk)
    requires WalkInv(b, orig, id0, i, w)
    requires i < |w.iterations| && w.iterations[i].Some?
    ensures WalkInv(b, orig, id0, i + 1, Visit(b, i, w))
  {
    var w1 := Visit(b, i, w);
    assert w1.iterations == w.iterations && w1.nextId == w.nextId;
    assert i < |orig| && orig[i] == w.iterations[i];
    VisitOccupiedLog(b, id0, i, w);
  }

  lemma VisitOccupiedNumbers(b: Binder, orig: seq<Option<Iteration>>, id0: nat, i: nat, w: Walk)
    requires NumberInv(orig, id0, i, w)
    requires i < |w.iterations| && w.iterations[i].Some? && !Hole(orig, i)
    ensures NumberInv(orig, id0, i + 1, Visit(b, i, w))
  {
    var w1 := Visit(b, i, w);
    assert w1.iterations == w.iterations && w1.nextId == w.nextId;
  }

  /** At a filled position the queue, if any, becomes a batch flushed
      before that position's iteration. */
  lemma VisitOccupiedBatch(b: Binder, orig: seq<Option<Iteration>>, i: nat, w: Walk)
    requires BatchInv(orig, i, w)
    requires i < |orig| && i < |w.iterations| && orig[i].Some? && w.iterations[i] == orig[i]
    ensures BatchInv(orig, i + 1, Visit(b, i, w))
  {
    var w1 := Visit(b, i, w);
    var r := w.iterations;
    var ins := Summarize(w.log).inserts;
    assert w1.iterations == r;
    assert RunBefore(r, orig, i + 1, []);
    if |w.queued| > 0 {
      var x := (w.queued, FirstNodeOf(orig[i].value.id));
      SummarizeSnoc(w.log, Insert(x.0, x.1));
      assert Summarize(w1.log).inserts == ins + [x];
      assert FlushedBefore(r, orig, i + 1, x) by {
        assert RunBefore(r, orig, i, w.queued);
      }
      forall k | 0 <= k < |ins| + 1 ensures |(ins + [x])[k].0| > 0 && FlushedBefore(r, orig, i + 1, (ins + [x])[k]) {
        if k < |ins| {
          assert (ins + [x])[k] == ins[k];
          FlushedLater(r, orig, i, i + 1, ins[k]);
        }
      }
    } else {
      forall k | 0 <= k < |ins| ensures FlushedBefore(r, orig, i + 1, ins[k]) {
        FlushedLater(r, orig, i, i + 1, ins[k]);
      }
    }
  }

  lemma FlushedLater(r: seq<Option<Iteration>>, orig: seq<Option<Iteration>>, i: nat, j: nat, x: (seq<nat>, Anchor))
    requires FlushedBefore(r, orig, i, x) && i <= j
    ensures FlushedBefore(r, orig, j, x)
  {
    var p :| 0 <= p < i && p < |orig| && orig[p].Some? && x.1 == FirstNodeOf(orig[p].value.id) && RunBefore(r, orig, p, x.0);
  }

  /** A run before p does not see what happens from p on. */
  lemma RunBeforeFrame(r: seq<Option<Iteration>>, r1: seq<Option<Iteration>>, orig: seq<Option<Iteration>>, p: nat, ids: seq<nat>)
    requires RunBefore(r, orig, p, ids)
    requires p <= |r| <= |r1| && forall j | 0 <= j < p :: r1[j] == r[j]
    ensures RunBefore(r1, orig, p, ids)
  {
  }

  lemma FlushedFrame(r: seq<Option<Iteration>>, r1: seq<Option<Iteration>>, orig: seq<Option<Iteration>>, upto: nat, x: (seq<nat>, Anchor))
    requires FlushedBefore(r, orig, upto, x)
    requires upto <= |r| <= |r1| && forall j | 0 <= j < upto :: r1[j] == r[j]
    ensures FlushedBefore(r1, orig, upto, x)
  {
    var p :| 0 <= p < upto && p < |orig| && orig[p].Some? && x.1 == FirstNodeOf(orig[p].value.id) && RunBefore(r, orig, p, x.0);
    RunBeforeFrame(r, r1, orig, p, x.0);
  }

  /** A new iteration at an empty position extends the run before it. */
  lemma RunExtend(r: seq<Option<Iteration>>, r1: seq<Option<Iteration>>, orig: seq<Option<Iteration>>, i: nat, ids: seq<nat>, u: Iteration)
    requires RunBefore(r, orig, i, ids) && Hole(orig, i)
    requires i < |r1| && r1[i] == Some(u) && |r| <= |r1| && forall j | 0 <= j < i :: r1[j] == r[j]
    ensures RunBefore(r1, orig, i + 1, ids + [u.id])
  {
    var q := ids + [u.id];
    forall j | i - |ids| <= j < i + 1 ensures Hole(orig, j) && r1[j].Some? && r1[j].value.id == q[j - (i - |ids|)] {
      if j < i {
        assert r1[j] == r[j];
      }
    }
  }

  lemma VisitOccupiedLog(b: Binder, id0: nat, i: nat, w: Walk)
    requires LogInv(id0, w)
    requires i < |w.iterations| && w.iterations[i].Some?
    ensures LogInv(id0, Visit(b, i, w))
  {
    var w1 := Visit(b, i, w);
    if |w.queued| > 0 {
      var x := (w.queued, FirstNodeOf(w.iterations[i].value.id));
      var e := Insert(x.0, x.1);
      assert w1.log == w.log + [e] && w1.queued == [] && w1.nextId == w.nextId;
      SummarizeSnoc(w.log, e);
      var ins := Summarize(w.log).inserts;
      assert Summarize(w1.log).inserts == ins + [x];
      FlattenSnoc(ins, x);
      assert Flatten(Summarize(w1.log).inserts) + w1.queued == Flatten(ins) + w.queued;
    }
  }

  /** A hole, or a position past the end, gets a new iteration whose
      identity is queued. */
  lemma VisitEmpty(b: Binder, orig: seq<Option<Iteration>>, id0: nat, i: nat, w: Walk)
    requires WalkInv(b, orig, id0, i, w)
    requires !(i < |w.iterations| && w.iterations[i].Some?)
    ensures WalkInv(b, orig, id0, i + 1, Visit(b, i, w))
  {
    VisitEmptyList(b, orig, id0, i, w);
    VisitEmptyLog(b, id0, i, w);
  }

  lemma VisitEmptyNumbers(b: Binder, orig: seq<Option<Iteration>>, id0: nat, i: nat, w: Walk)
    requires NumberInv(orig, id0, i, w) && Hole(orig, i)
    requires !(i < |w.iterations| && w.iterations[i].Some?)
    ensures NumberInv(orig, id0, i + 1, Visit(b, i, w))
  {
    var u := MakeIteration(b, w.nextId, Index(i), i);
    var w1 := Visit(b, i, w);
    assert w1.iterations == Assign(w.iterations, i, u) && w1.nextId == w.nextId + 1;
    forall j | 0 <= j < i + 1 && Hole(orig, j)
      ensures j < |w1.iterations| && w1.iterations[j].Some? && w1.iterations[j].value.id == id0 + HoleCount(orig, j)
    {
      if j < i {
        assert w1.iterations[j] == w.iterations[j];
      }
    }
  }

  /** At an empty position the new iteration joins the queue. */
  lemma VisitEmptyBatch(b: Binder, orig: seq<Option<Iteration>>, i: nat, w: Walk)
    requires BatchInv(orig, i, w) && Hole(orig, i)
    requires !(i < |w.iterations| && w.iterations[i].Some?)
    ensures BatchInv(orig, i + 1, Visit(b, i, w))
  {
    var u := MakeIteration(b, w.nextId, Index(i), i);
    var w1 := Visit(b, i, w);
    var r := w.iterations;
    var r1 := w1.iterations;
    assert r1 == Assign(r, i, u) && w1.queued == w.queued + [u.id];
    assert forall j | 0 <= j < i :: r1[j] == r[j];
    SummarizeSnoc(w.log, Create(u.id, u.key, u.index));
    var ins := Summarize(w.log).inserts;
    assert Summarize(w1.log).inserts == ins + [] == ins;
    RunExtend(r, r1, orig, i, w.queued, u);
    forall k | 0 <= k < |ins| ensures FlushedBefore(r1, orig, i + 1, ins[k]) {
      FlushedFrame(r, r1, orig, i, ins[k]);
      FlushedLater(r1, orig, i, i + 1, ins[k]);
    }
  }

  lemma VisitEmptyList(b: Binder, orig: seq<Option<Iteration>>, id0: nat, i: nat, w: Walk)
    requires ListInv(b, orig, id0, i, w)
    requires !(i < |w.iterations| && w.iterations[i].Some?)
    ensures ListInv(b, orig, id0, i + 1, Visit(b, i, w))
  {
    var u := MakeIteration(b, w.nextId, Index(i), i);
    var w1 := Visit(b, i, w);
    assert w1.iterations == Assign(w.iterations, i, u) && w1.nextId == w.nextId + 1;
    assert i >= |orig| ==> |w.iterations| == i;
    assert i < |orig| ==> orig[i].None?;
    assert Made(b, w1.iterations[i], i, id0, w1.nextId);
    forall j | 0 <= j < i && (j >= |orig| || orig[j].None?) ensures Made(b, w1.iterations[j], j, id0, w1.nextId) {
      assert Made(b, w.iterations[j], j, id0, w.nextId);
    }
  }

  lemma VisitEmptyLog(b: Binder, id0: nat, i: nat, w: Walk)
    requires LogInv(id0, w)
    requires !(i < |w.iterations| && w.iterations[i].Some?)
    ensures LogInv(id0, Visit(b, i, w))
  {
    var u := MakeIteration(b, w.nextId, Index(i), i);
    CreateKeepsLog(id0, w, Visit(b, i, w), u.key, u.index);
  }

  /** Creating the next identity and queueing it keeps the log invariant. */
  lemma CreateKeepsLog(id0: nat, w: Walk, w1: Walk, key: Key, index: nat)
    requires LogInv(id0, w)
    requires w1.log == w.log + [Create(w.nextId, key, index)]
    requires w1.queued == w.queued + [w.nextId] && w1.nextId == w.nextId + 1
    ensures LogInv(id0, w1)
  {
    var e := Create(w.nextId, key, index);
    SummarizeSnoc(w.log, e);
    RangeSnoc(id0, w.nextId - id0);
    var ins := Summarize(w.log).inserts;
    assert Summarize(w1.log).inserts == ins + [] == ins;
    assert Flatten(ins) + (w.queued + [w.nextId]) == Flatten(ins) + w.queued + [w.nextId];
  }

  lemma {:induction false} FillSpec(b: Binder, orig: seq<Option<Iteration>>, id0: nat, i: nat, len: nat, w: Walk)
    requires i <= len && WalkInv(b, orig, id0, i, w)
    ensures WalkInv(b, orig, id0, len, Fill(b, i, len, w))
    decreases len - i
  {
    if i < len {
      assert Fill(b, i, len, w) == Fill(b, i + 1, len, Visit(b, i, w));
      VisitStep(b, orig, id0, i, w);
      FillSpec(b, orig, id0, i + 1, len, Visit(b, i, w));
    } else {
      assert Fill(b, i, len, w) == w && i == len;
    }
  }

  /** Whether the walk visits a filled position is whether that position
      was filled at the start. */
  lemma VisitSees(b: Binder, orig: seq<Option<Iteration>>, id0: nat, i: nat, w: Walk)
    requires ListInv(b, orig, id0, i, w)
    ensures (i < |w.iterations| && w.iterations[i].Some?) <==> !Hole(orig, i)
    ensures !Hole(orig, i) ==> i < |w.iterations| && w.iterations[i] == orig[i]
  {
    if i < |orig| {
      assert w.iterations[i] == orig[i];
    }
  }

  /** The walk numbers the empty positions in order. */
  lemma {:induction false} FillNumbers(b: Binder, orig: seq<Option<Iteration>>, id0: nat, i: nat, len: nat, w: Walk)
    requires i <= len && ListInv(b, orig, id0, i, w) && NumberInv(orig, id0, i, w)
    ensures ListInv(b, orig, id0, len, Fill(b, i, len, w)) && NumberInv(orig, id0, len, Fill(b, i, len, w))
    decreases len - i
  {
    if i < len {
      NumberStep(b, orig, id0, i, w);
      FillNumbers(b, orig, id0, i + 1, len, Visit(b, i, w));
    }
  }

  lemma NumberStep(b: Binder, orig: seq<Option<Iteration>>, id0: nat, i: nat, w: Walk)
    requires ListInv(b, orig, id0, i, w) && NumberInv(orig, id0, i, w)
    ensures ListInv(b, orig, id0, i + 1, Visit(b, i, w)) && NumberInv(orig, id0, i + 1, Visit(b, i, w))
  {
    VisitSees(b, orig, id0, i, w);
    if i < |w.iterations| && w.iterations[i].Some? {
      assert Visit(b, i, w).iterations == w.iterations && Visit(b, i, w).nextId == w.nextId;
      VisitOccupiedNumbers(b, orig, id0, i, w);
    } else {
      VisitEmptyList(b, orig, id0, i, w);
      VisitEmptyNumbers(b, orig, id0, i, w);
    }
  }

  /** The walk flushes each run of new iterations before the next filled
      position, and keeps the run at its end queued. */
  lemma {:induction false} FillBatches(b: Binder, orig: seq<Option<Iteration>>, id0: nat, i: nat, len: nat, w: Walk)
    requires i <= len && ListInv(b, orig, id0, i, w) && BatchInv(orig, i, w)
    ensures ListInv(b, orig, id0, len, Fill(b, i, len, w)) && BatchInv(orig, len, Fill(b, i, len, w))
    decreases len - i
  {
    if i < len {
      BatchStep(b, orig, id0, i, w);
      FillBatches(b, orig, id0, i + 1, len, Visit(b, i, w));
    }
  }

  lemma BatchStep(b: Binder, orig: seq<Option<Iteration>>, id0: nat, i: nat, w: Walk)
    requires ListInv(b, orig, id0, i, w) && BatchInv(orig, i, w)
    ensures ListInv(b, orig, id0, i + 1, Visit(b, i, w)) && BatchInv(orig, i + 1, Visit(b, i, w))
  {
    VisitSees(b, orig, id0, i, w);
    if i < |w.iterations| && w.iterations[i].Some? {
      assert Visit(b, i, w).iterations == w.iterations && Visit(b, i, w).nextId == w.nextId;
      VisitOccupiedBatch(b, orig, i, w);
    } else {
      VisitEmptyList(b, orig, id0, i, w);
      VisitEmptyBatch(b, orig, i, w);
    }
  }

  lemma VisitStep(b: Binder, orig: seq<Option<Iteration>>, id0: nat, i: nat, w: Walk)
    requires WalkInv(b, orig, id0, i, w)
    ensures WalkInv(b, orig, id0, i + 1, Visit(b, i, w))
  {
    if i < |w.iterations| && w.iterations[i].Some? {
      VisitOccupied(b, orig, id0, i, w);
    } else {
      VisitEmpty(b, orig, id0, i, w);
    }
  }

  /** Retiring the snapshot takes one event per entry, each a destroy or
      a rebind, and does nothing else. */
  lemma {:induction false} RetireCounts(ni: seq<int>, prev: seq<Iteration>)
    requires |ni| == |prev| && forall i | 0 <= i < |ni| :: ni[i] >= -1
    ensures var s := Summarize(Retire(ni, prev));
      && s == Nothing.(destroyed := s.destroyed, rebound := s.rebound)
      && |s.destroyed| + |s.rebound| == |ni|
    decreases |ni|
  {
    var log := Retire(ni, prev);
    if |ni| == 0 {
      assert log == [];
    } else {
      assert log[1..] == Retire(ni[1..], prev[1..]);
      RetireCounts(ni[1..], prev[1..]);
      assert Summarize(log) == Count(log[0]).Plus(Summarize(log[1..]));
    }
  }

  /** Some snapshot iteration with entry -1 has identity `x`. */
  predicate DroppedAt(ni: seq<int>, prev: seq<Iteration>, x: nat)
    requires |ni| == |prev|
  {
    exists i :: 0 <= i < |ni| && ni[i] == -1 && prev[i].id == x
  }

  /** Some snapshot iteration moves to a new position, as the pair `p`
      of its identity and that position says. */
  predicate MovedAt(ni: seq<int>, prev: seq<Iteration>, p: (nat, nat))
    requires |ni| == |prev|
  {
    exists i :: 0 <= i < |ni| && ni[i] >= 0 && p == (prev[i].id, ni[i] as nat)
  }

  /** Retiring destroys exactly the snapshot iterations whose entry is -1. */
  lemma {:induction false} RetireDestroys(ni: seq<int>, prev: seq<Iteration>)
    requires |ni| == |prev| && forall i | 0 <= i < |ni| :: ni[i] >= -1
    ensures var s := Summarize(Retire(ni, prev));
      forall x :: x in s.destroyed <==> DroppedAt(ni, prev, x)
    decreases |ni|
  {
    if |ni| == 0 {
      assert Retire(ni, prev) == [];
    } else {
      var hd := if ni[0] == -1 then [prev[0].id] else [];
      var rest := Summarize(Retire(ni[1..], prev[1..]));
      RetireCons(ni, prev);
      assert Summarize(Retire(ni, prev)).destroyed == hd + rest.destroyed;
      RetireDestroys(ni[1..], prev[1..]);
      forall x ensures x in hd + rest.destroyed <==> DroppedAt(ni, prev, x) {
        DroppedShift(ni, prev, x);
      }
    }
  }

  /** Retiring rebinds exactly the other snapshot iterations, each to the
      model at its new position. */
  lemma {:induction false} RetireRebinds(ni: seq<int>, prev: seq<Iteration>)
    requires |ni| == |prev| && forall i | 0 <= i < |ni| :: ni[i] >= -1
    ensures var s := Summarize(Retire(ni, prev));
      forall p :: p in s.rebound <==> MovedAt(ni, prev, p)
    decreases |ni|
  {
    if |ni| == 0 {
      assert Retire(ni, prev) == [];
    } else {
      var hd := if ni[0] >= 0 then [(prev[0].id, ni[0] as nat)] else [];
      var rest := Summarize(Retire(ni[1..], prev[1..]));
      RetireCons(ni, prev);
      assert Summarize(Retire(ni, prev)).rebound == hd + rest.rebound;
      RetireRebinds(ni[1..], prev[1..]);
      forall p ensures p in hd + rest.rebound <==> MovedAt(ni, prev, p) {
        MovedShift(ni, prev, p);
      }
    }
  }

  /** The first retirement step: the first snapshot entry is destroyed or
      rebound, then the rest are retired. */
  lemma RetireCons(ni: seq<int>, prev: seq<Iteration>)
    requires |ni| == |prev| > 0 && forall i | 0 <= i < |ni| :: ni[i] >= -1
    ensures var s := Summarize(Retire(ni, prev));
      var rest := Summarize(Retire(ni[1..], prev[1..]));
      && s.destroyed == (if ni[0] == -1 then [prev[0].id] else []) + rest.destroyed
      && s.rebound == (if ni[0] >= 0 then [(prev[0].id, ni[0] as nat)] else []) + rest.rebound
  {
    var log := Retire(ni, prev);
    assert log[1..] == Retire(ni[1..], prev[1..]);
    assert Summarize(log) == Count(log[0]).Plus(Summarize(log[1..]));
  }

  lemma DroppedShift(ni: seq<int>, prev: seq<Iteration>, x: nat)
    requires |ni| == |prev| > 0
    ensures DroppedAt(ni, prev, x) <==> (ni[0] == -1 && prev[0].id == x) || DroppedAt(ni[1..], prev[1..], x)
  {
    if DroppedAt(ni[1..], prev[1..], x) {
      var i :| 0 <= i < |ni| - 1 && ni[1..][i] == -1 && prev[1..][i].id == x;
      assert ni[i + 1] == -1 && prev[i + 1].id == x;
    }
    if DroppedAt(ni, prev, x) {
      var i :| 0 <= i < |ni| && ni[i] == -1 && prev[i].id == x;
      if i > 0 {
        assert ni[1..][i - 1] == -1 && prev[1..][i - 1].id == x;
      }
    }
  }

  lemma MovedShift(ni: seq<int>, prev: seq<Iteration>, p: (nat, nat))
    requires |ni| == |prev| > 0
    ensures MovedAt(ni, prev, p) <==>
      (ni[0] >= 0 && p == (prev[0].id, ni[0] as nat)) || MovedAt(ni[1..], prev[1..], p)
  {
    if MovedAt(ni[1..], prev[1..], p) {
      var i :| 0 <= i < |ni| - 1 && ni[1..][i] >= 0 && p == (prev[1..][i].id, ni[1..][i] as nat);
      assert ni[i + 1] >= 0 && p == (prev[i + 1].id, ni[i + 1] as nat);
    }
    if MovedAt(ni, prev, p) {
      var i :| 0 <= i < |ni| && ni[i] >= 0 && p == (prev[i].id, ni[i] as nat);
      if i > 0 {
        assert ni[1..][i - 1] >= 0 && p == (prev[1..][i - 1].id, ni[1..][i - 1] as nat);
      }
    }
  }

  /** After completion nothing is pending; the list reaches the array's
      length with every slot below it filled; each iteration present
      before completion stays where it was, and so does everything past
      the array's length; and each hole below it holds a new iteration
      for that position whose identity was never handed out before. */
  lemma CompletionList(b: Binder, value: Value)
    requires b.pending.Some? && PendingInput(b.pending.value, b.previous)
    ensures var s := UpdatePostShuffle(b, value);
      var len := ArrayLength(value);
      var its := b.iterations;
      var r := s.binder.iterations;
      && s.binder.pending.None?
      && |r| == (if len <= |its| then |its| else len)
      && (forall j | 0 <= j < len :: r[j].Some?)
      && (forall j | 0 <= j < |its| && its[j].Some? :: r[j] == its[j])
      && (forall j | len <= j < |its| :: r[j] == its[j])
      && (forall j | 0 <= j < len && (j >= |its| || its[j].None?) :: Made(b, r[j], j, b.nextId, s.binder.nextId))
      && b.nextId <= s.binder.nextId
  {
    var len := ArrayLength(value);
    WalkStart(b, b.iterations, b.nextId);
    FillSpec(b, b.iterations, b.nextId, 0, len, Walk(b.iterations, [], [], b.nextId));
    var w := Fill(b, 0, len, Walk(b.iterations, [], [], b.nextId));
    forall j | 0 <= j < len ensures w.iterations[j].Some? {
      if j >= |b.iterations| || b.iterations[j].None? {
        assert Made(b, w.iterations[j], j, b.nextId, w.nextId);
      }
    }
  }

  /** Completion's log in terms of its parts: the retirement, the walk,
      one refresh per live iteration, and the final insert of whatever is
      still queued. */
  lemma CompletionShape(b: Binder, value: Value)
    requires b.pending.Some? && PendingInput(b.pending.value, b.previous)
    ensures var s := UpdatePostShuffle(b, value);
      var w := Fill(b, 0, ArrayLength(value), Walk(b.iterations, [], [], b.nextId));
      var sr := Summarize(Retire(b.pending.value, Units(b.previous)));
      var sw := Summarize(w.log);
      Summarize(s.log) == Nothing.(destroyed := sr.destroyed, rebound := sr.rebound, created := sw.created,
                                   refreshed := LiveIds(w.iterations),
                                   inserts := sw.inserts + (if |w.queued| > 0 then [(w.queued, OwnerNext)] else []))
  {
    var ni := b.pending.value;
    var w0 := Walk(b.iterations, [], [], b.nextId);
    WalkStart(b, b.iterations, b.nextId);
    FillSpec(b, b.iterations, b.nextId, 0, ArrayLength(value), w0);
    var w := Fill(b, 0, ArrayLength(value), w0);
    RetireCounts(ni, Units(b.previous));
    SummarizeParts(Retire(ni, Units(b.previous)), w.log, LiveIds(w.iterations), w.queued);
  }

  /** The sum of a completion log from the sums of its parts. */
  lemma SummarizeParts(retire: seq<Event>, walk: seq<Event>, live: seq<nat>, queued: seq<nat>)
    requires Summarize(retire) == Nothing.(destroyed := Summarize(retire).destroyed, rebound := Summarize(retire).rebound)
    requires Summarize(walk) == Nothing.(created := Summarize(walk).created, inserts := Summarize(walk).inserts)
    ensures var tail := if |queued| > 0 then [Insert(queued, OwnerNext)] else [];
      var sr := Summarize(retire);
      var sw := Summarize(walk);
      Summarize(retire + walk + RefreshAll(live) + tail)
        == Nothing.(destroyed := sr.destroyed, rebound := sr.rebound, created := sw.created, refreshed := live,
                    inserts := sw.inserts + (if |queued| > 0 then [(queued, OwnerNext)] else []))
  {
    var tail := if |queued| > 0 then [Insert(queued, OwnerNext)] else [];
    var tailSum := Nothing.(inserts := if |queued| > 0 then [(queued, OwnerNext)] else []);
    assert Summarize(tail) == tailSum by {
      if |queued| > 0 { SummarizeOne(Insert(queued, OwnerNext)); }
    }
    SummarizeRefreshAll(live);
    SummarizeFour(retire, walk, RefreshAll(live), tail);
    PlusFour(Summarize(retire), Summarize(walk), Nothing.(refreshed := live), tailSum);
  }

  /** The sum of a destroy-and-rebind part, a create-and-insert part, a
      refresh part and an insert part. */
  lemma PlusFour(sr: Summary, sw: Summary, sf: Summary, st: Summary)
    requires sr == Nothing.(destroyed := sr.destroyed, rebound := sr.rebound)
    requires sw == Nothing.(created := sw.created, inserts := sw.inserts)
    requires sf == Nothing.(refreshed := sf.refreshed)
    requires st == Nothing.(inserts := st.inserts)
    ensures sr.Plus(sw).Plus(sf).Plus(st)
         == Nothing.(destroyed := sr.destroyed, rebound := sr.rebound, created := sw.created,
                     refreshed := sf.refreshed, inserts := sw.inserts + st.inserts)
  {
    assert sr.destroyed + [] + [] + [] == sr.destroyed;
    assert sr.rebound + [] + [] + [] == sr.rebound;
    assert [] + sw.created + [] + [] == sw.created;
    assert [] + [] + sf.refreshed + [] == sf.refreshed;
    assert [] + sw.inserts + [] + st.inserts == sw.inserts + st.inserts;
  }

  /** Completion's effects: the snapshot is retired as RetireDestroys and
      RetireRebinds say; the new identities are handed out consecutively
      and created in order, one per hole below the length, in position
      order; every created iteration is inserted exactly once, in creation
      order; every live iteration is refreshed once, in
      position order; and the owner is not told again. */
  lemma CompletionLog(b: Binder, value: Value)
    requires b.pending.Some? && PendingInput(b.pending.value, b.previous)
    ensures var s := UpdatePostShuffle(b, value);
      var sum := Summarize(s.log);
      var retired := Summarize(Retire(b.pending.value, Units(b.previous)));
      && sum.destroyed == retired.destroyed
      && sum.rebound == retired.rebound
      && b.nextId <= s.binder.nextId
      && sum.created == Range(b.nextId, s.binder.nextId - b.nextId)
      && ArrayLength(value) <= |s.binder.iterations|
      && sum.created == HoleIds(s.binder.iterations, b.iterations, ArrayLength(value))
      && Flatten(sum.inserts) == sum.created
      && sum.refreshed == LiveIds(s.binder.iterations)
      && sum.bubbles == 0
  {
    var w0 := Walk(b.iterations, [], [], b.nextId);
    WalkStart(b, b.iterations, b.nextId);
    FillSpec(b, b.iterations, b.nextId, 0, ArrayLength(value), w0);
    var w := Fill(b, 0, ArrayLength(value), w0);
    CompletionShape(b, value);
    CompletionHoles(b, value);
    var ins := Summarize(w.log).inserts;
    if |w.queued| > 0 {
      FlattenSnoc(ins, (w.queued, OwnerNext));
    } else {
      assert ins + [] == ins;
      assert Flatten(ins) + w.queued == Flatten(ins);
    }
  }

  /** The k-th hole of the starting list gets the k-th new identity: the
      walk creates exactly one iteration per empty position below the
      length, and the created identities, in order, are those of the
      holes, in position order. */
  lemma CompletionHoles(b: Binder, value: Value)
    requires b.pending.Some? && PendingInput(b.pending.value, b.previous)
    ensures var s := UpdatePostShuffle(b, value);
      var len := ArrayLength(value);
      var its := b.iterations;
      var r := s.binder.iterations;
      && len <= |r|
      && s.binder.nextId == b.nextId + HoleCount(its, len)
      && (forall j | 0 <= j < len && Hole(its, j) :: r[j].Some? && r[j].value.id == b.nextId + HoleCount(its, j))
      && Summarize(s.log).created == HoleIds(r, its, len)
  {
    var len := ArrayLength(value);
    var w0 := Walk(b.iterations, [], [], b.nextId);
    WalkStart(b, b.iterations, b.nextId);
    FillSpec(b, b.iterations, b.nextId, 0, len, w0);
    FillNumbers(b, b.iterations, b.nextId, 0, len, w0);
    var w := Fill(b, 0, len, w0);
    CompletionShape(b, value);
    HoleIdsRange(w.iterations, b.iterations, b.nextId, len);
  }

  /** The identities at the holes below n, when the k-th hole holds
      identity id0 + k, are the next HoleCount(orig, n) identities. */
  lemma {:induction false} HoleIdsRange(r: seq<Option<Iteration>>, orig: seq<Option<Iteration>>, id0: nat, n: nat)
    requires n <= |r|
    requires forall j | 0 <= j < n && Hole(orig, j) :: r[j].Some? && r[j].value.id == id0 + HoleCount(orig, j)
    ensures HoleIds(r, orig, n) == Range(id0, HoleCount(orig, n))
  {
    if n > 0 {
      HoleIdsRange(r, orig, id0, n - 1);
      if Hole(orig, n - 1) {
        RangeSnoc(id0, HoleCount(orig, n - 1));
      }
    }
  }

  /** Where completion inserts: every batch is non-empty; each but the
      last is inserted before the first node of an iteration that filled
      its position from the start, and holds exactly the new iterations of
      the run of holes just before that position; the last may instead go
      before the owner's next node, holding the run of new iterations that
      ends the array. */
  lemma CompletionInserts(b: Binder, value: Value)
    requires b.pending.Some? && PendingInput(b.pending.value, b.previous)
    ensures var s := UpdatePostShuffle(b, value);
      var len := ArrayLength(value);
      var ins := Summarize(s.log).inserts;
      var r := s.binder.iterations;
      forall k | 0 <= k < |ins| ::
        && |ins[k].0| > 0
        && (ins[k].1 == OwnerNext ==> k == |ins| - 1 && RunBefore(r, b.iterations, len, ins[k].0))
        && (ins[k].1 != OwnerNext ==> FlushedBefore(r, b.iterations, len, ins[k]))
  {
    var len := ArrayLength(value);
    var orig := b.iterations;
    var w0 := Walk(orig, [], [], b.nextId);
    WalkStart(b, orig, b.nextId);
    assert BatchInv(orig, 0, w0) by {
      assert Summarize(w0.log) == Nothing;
    }
    FillBatches(b, orig, b.nextId, 0, len, w0);
    var w := Fill(b, 0, len, w0);
    CompletionShape(b, value);
    var ws := Summarize(w.log).inserts;
    var tail := if |w.queued| > 0 then [(w.queued, OwnerNext)] else [];
    var ins := ws + tail;
    forall k | 0 <= k < |ins|
      ensures |ins[k].0| > 0
      ensures ins[k].1 == OwnerNext ==> k == |ins| - 1 && RunBefore(w.iterations, orig, len, ins[k].0)
      ensures ins[k].1 != OwnerNext ==> FlushedBefore(w.iterations, orig, len, ins[k])
    {
      if k < |ws| {
        assert ins[k] == ws[k];
        assert FlushedBefore(w.iterations, orig, len, ws[k]);
        var p :| 0 <= p < len && p < |orig| && orig[p].Some? && ws[k].1 == FirstNodeOf(orig[p].value.id)
          && RunBefore(w.iterations, orig, p, ws[k].0);
      } else {
        assert ins[k] == (w.queued, OwnerNext) && k == |ins| - 1;
      }
    }
  }
}

=== FILE: create_item.dfy ===
/** The factory that turns one template node into a render item: a string
    template becomes a text item, any other template is dispatched on its
    type tag through a fixed table of four item kinds. */
module Items {
  import opened Wrappers
  import opened Collection

  /** Template type tags, as Ractive's table of template types numbers
      them; only the fact that they differ matters here. */
  const INTERPOLATOR: int := 2
  const SECTION: int := 4
  const ELEMENT: int := 7
  const PARTIAL: int := 8

  /** A template is a plain string, or a node whose type tag `t` may be
      absent. */
  datatype Template = Literal(text: string) | Node(t: Option<int>)

  /** The options an item is built from: the template and, opaquely, the
      rest (owner, parent fragment) that the constructors receive. */
  datatype Options = Options(template: Template, context: nat)

  datatype Kind = ElementItem | InterpolatorItem | PartialItem | SectionItem

  /** A text item holds its string; the other items are constructed from
      the whole options. */
  datatype Item = Text(text: string) | Built(kind: Kind, options: Options)

  /** The constructor table, keyed by type tag. */
  const Constructors: map<int, Kind> :=
    map[ELEMENT := ElementItem, INTERPOLATOR := InterpolatorItem, PARTIAL := PartialItem, SECTION := SectionItem]

  /** How a tag prints inside the error message; an absent tag prints as
      `undefined`. */
  function TagText(t: Option<int>): string {
    if t.Some? then IntToString(t.value) else "undefined"
  }

  function CreateItem(options: Options): (r: Result<Item, string>)
    ensures options.template.Literal? ==> r == Success(Text(options.template.text))
    ensures r.Failure? ==> r.error == "Unrecognised item type " + TagText(options.template.t)
  {
    match options.template
    case Literal(text) => Success(Text(text))
    case Node(t) =>
      if t.Some? && t.value in Constructors then Success(Built(Constructors[t.value], options))
      else Failure("Unrecognised item type " + TagText(t))
  }

  /** The table holds exactly the four tags, each with its own kind. */
  lemma ConstructorTable()
    ensures Constructors.Keys == {ELEMENT, INTERPOLATOR, PARTIAL, SECTION}
    ensures forall t1, t2 | t1 in Constructors && t2 in Constructors && t1 != t2 :: Constructors[t1] != Constructors[t2]
  {
  }

  /** A non-string template with one of the four known tags yields an item
      of the matching kind, built from the same options; any other tag,
      or none, fails and yields no item. */
  lemma CreateItemDispatch(options: Options)
    requires options.template.Node?
    ensures var t := options.template.t; var r := CreateItem(options);
      && (t == Some(ELEMENT) ==> r == Success(Built(ElementItem, options)))
      && (t == Some(INTERPOLATOR) ==> r == Success(Built(InterpolatorItem, options)))
      && (t == Some(PARTIAL) ==> r == Success(Built(PartialItem, options)))
      && (t == Some(SECTION) ==> r == Success(Built(SectionItem, options)))
      && (r.Success? <==> t in {Some(ELEMENT), Some(INTERPOLATOR), Some(PARTIAL), Some(SECTION)})
  {
  }

  /** The outcome depends only on whether the template is a string and on
      its tag: two node templates with the same tag give the same kind of
      item, or the same error. */
  lemma CreateItemDeterministic(o1: Options, o2: Options)
    requires o1.template.Node? && o2.template.Node? && o1.template.t == o2.template.t
    ensures CreateItem(o1).Success? == CreateItem(o2).Success?
    ensures CreateItem(o1).Success? ==> CreateItem(o1).value.kind == CreateItem(o2).value.kind
    ensures CreateItem(o1).Failure? ==> CreateItem(o1) == CreateItem(o2)
  {
  }

  /** A string template always gives a text item, whatever the string. */
  lemma StringTemplates(text: string, context: nat)
    ensures CreateItem(Options(Literal(text), context)) == Success(Text(text))
  {
  }

  /** For example, tag 3 (a triple) is not in the table. */
  lemma UnknownTag()
    ensures CreateItem(Options(Node(Some(3)), 0)) == Failure("Unrecognised item type 3")
  {
    assert 3 !in Constructors;
    assert DigitChar(3) == '3';
    assert IntToString(3) == [DigitChar(3)] == "3";
    assert "Unrecognised item type " + TagText(Some(3)) == "Unrecognised item type 3";
  }
}

=== FILE: cycle_proofs.dfy ===
/** A whole reorder: shuffle by a permutation, then the update that
    completes it. */
module CycleProofs {
  import opened Wrappers
  import opened Collection
  import opened Effects
  import opened RepeatedFragment
  import opened LogFacts
  import opened ShuffleProofs
  import opened CompletionProofs
  import opened Queries

  /** The positions below n. */
  function Upto(n: nat): set<int> {
    if n == 0 then {} else Upto(n - 1) + {n - 1}
  }

  lemma {:induction false} UptoSpec(n: nat)
    ensures |Upto(n)| == n
    ensures forall j :: j in Upto(n) <==> 0 <= j < n
  {
    if n > 0 {
      UptoSpec(n - 1);
    }
  }

  /** A permutation of n entries names every position below n. */
  lemma PermutationCovers(ni: seq<int>)
    requires Moves(ni) && forall i | 0 <= i < |ni| :: 0 <= ni[i] < |ni|
    ensures forall j | 0 <= j < |ni| :: Targeted(ni, j)
  {
    assert Distinct(ni);
    DistinctCard(ni);
    UptoSpec(|ni|);
    var hit := Elements(ni);
    var all := Upto(|ni|);
    assert hit <= all;
    assert |all - hit| == 0 by {
      assert all == hit + (all - hit);
      assert hit * (all - hit) == {};
    }
    forall j | 0 <= j < |ni| ensures Targeted(ni, j) {
      assert j in all;
      assert j in hit;
    }
  }

  /** The walk leaves a list without holes, and with nothing queued, as it
      is. */
  lemma {:induction false} FillNoHoles(b: Binder, i: nat, len: nat, w: Walk)
    requires w.queued == [] && len <= |w.iterations|
    requires forall j | i <= j < len :: w.iterations[j].Some?
    ensures Fill(b, i, len, w) == w
    decreases len - i
  {
    if i < len {
      assert Visit(b, i, w) == w;
      FillNoHoles(b, i + 1, len, w);
    }
  }

  /** Shuffling by a permutation of the whole list leaves it without holes,
      each iteration at its new position. */
  lemma ShufflePermutes(b: Binder, ni: seq<int>)
    requires b.pending.None? && ShuffleInput(ni, b.iterations)
    requires forall i | 0 <= i < |ni| :: 0 <= ni[i] < |ni|
    ensures Shuffle(b, ni).Success?
    ensures var its := Shuffle(b, ni).value.binder.iterations;
      var us := Units(b.iterations);
      && |its| == |ni| && Dense(its)
      && forall i | 0 <= i < |ni| :: its[ni[i]] == Some(Moved(us[i], i, ni[i]))
  {
    var us := Units(b.iterations);
    assert Shuffle(b, ni).value.binder.iterations == Place(ni, us);
    PlaceLands(ni, us);
    PlaceFull(ni, us);
  }

  /** Placing by a permutation of all positions fills exactly those
      positions. */
  lemma PlaceFull(ni: seq<int>, us: seq<Iteration>)
    requires |ni| == |us| && Moves(ni)
    requires forall i | 0 <= i < |ni| :: 0 <= ni[i] < |ni|
    ensures |Place(ni, us)| == |ni| && Dense(Place(ni, us))
  {
    var its := Place(ni, us);
    PlaceLands(ni, us);
    PlaceHoles(ni, us);
    PlaceEnds(ni, us);
    PermutationCovers(ni);
    if |ni| > 0 {
      assert Targeted(ni, |ni| - 1);
      var i :| 0 <= i < |ni| && ni[i] == |ni| - 1;
      assert |ni| <= |its|;
      assert Targeted(ni, |its| - 1);
    }
    forall j | 0 <= j < |its| ensures its[j].Some? {
      assert Targeted(ni, j);
      var i :| 0 <= i < |ni| && ni[i] == j;
      assert its[ni[i]].Some?;
    }
  }

  /** Completing a reorder whose shuffle left no holes, by an array of the
      same length, creates, removes and inserts nothing: every snapshot
      iteration is rebound and every iteration refreshed. */
  lemma CompleteDense(b: Binder, n: nat)
    requires b.pending.Some? && PendingInput(b.pending.value, b.previous)
    requires |b.iterations| == n && Dense(b.iterations)
    requires forall i | 0 <= i < |b.pending.value| :: b.pending.value[i] >= 0
    ensures var s := UpdatePostShuffle(b, Arr(n));
      var retired := Summarize(Retire(b.pending.value, Units(b.previous)));
      && s.binder.iterations == b.iterations
      && s.binder.nextId == b.nextId
      && s.binder.pending.None?
      && Summarize(s.log) == Nothing.(rebound := retired.rebound, refreshed := LiveIds(b.iterations))
  {
    var ni := b.pending.value;
    var prev := Units(b.previous);
    var w0 := Walk(b.iterations, [], [], b.nextId);
    FillNoHoles(b, 0, n, w0);
    CompletionShape(b, Arr(n));
    RetireKeepsAll(ni, prev);
  }

  /** With no entry -1, retiring destroys nothing. */
  lemma {:induction false} RetireKeepsAll(ni: seq<int>, prev: seq<Iteration>)
    requires |ni| == |prev| && forall i | 0 <= i < |ni| :: ni[i] >= 0
    ensures Summarize(Retire(ni, prev)).destroyed == []
    decreases |ni|
  {
    var log := Retire(ni, prev);
    if |ni| == 0 {
      assert log == [];
    } else {
      assert log[1..] == Retire(ni[1..], prev[1..]);
      RetireKeepsAll(ni[1..], prev[1..]);
      assert Summarize(log) == Count(log[0]).Plus(Summarize(log[1..]));
    }
  }

  /** A reorder by a permutation, from shuffle to completion: the list
      ends without holes, each iteration at its new position as the same
      instance (marked dirty if it moved); every iteration is rebound to
      its new position and refreshed, once; and nothing is created,
      removed or inserted. */
  lemma PermutationCycle(b: Binder, ni: seq<int>)
    requires b.pending.None? && ShuffleInput(ni, b.iterations)
    requires forall i | 0 <= i < |ni| :: 0 <= ni[i] < |ni|
    ensures Shuffle(b, ni).Success?
    ensures var b1 := Shuffle(b, ni).value.binder;
      && UpdateReady(b1, Arr(|ni|))
      && var s := Update(b1, Arr(|ni|));
      var us := Units(b.iterations);
      var its := s.binder.iterations;
      var sum := Summarize(s.log);
      && |its| == |ni| && Dense(its)
      && (forall i | 0 <= i < |ni| :: its[ni[i]] == Some(Moved(us[i], i, ni[i])))
      && (forall p :: p in sum.rebound <==> exists i :: 0 <= i < |ni| && p == (us[i].id, ni[i] as nat))
      && sum.refreshed == LiveIds(its)
      && sum.created == [] && sum.destroyed == [] && sum.inserts == []
      && s.binder.nextId == b.nextId && s.binder.pending.None?
  {
    ShufflePermutes(b, ni);
    var b1 := Shuffle(b, ni).value.binder;
    var us := Units(b.iterations);
    assert b1.previous == b.iterations && b1.pending == Some(ni);
    CompleteDense(b1, |ni|);
    RetireRebinds(ni, us);
    var sum := Summarize(Update(b1, Arr(|ni|)).log);
    forall p ensures p in sum.rebound <==> exists i :: 0 <= i < |ni| && p == (us[i].id, ni[i] as nat) {
      if p in sum.rebound {
        assert MovedAt(ni, us, p);
      }
      if exists i :: 0 <= i < |ni| && p == (us[i].id, ni[i] as nat) {
        var i :| 0 <= i < |ni| && p == (us[i].id, ni[i] as nat);
        assert MovedAt(ni, us, p);
      }
    }
  }

  /** Completion rebinds a moved iteration but does not restamp its index,
      so after a reorder the stamped index no longer matches the position:
      here the rotation [2, 0, 1] puts y at position 0 still carrying index
      1, and the node after it is taken to be that of x, at position 2,
      although z follows it at position 1. */
  lemma StaleIndexAfterShuffle(x: Iteration, y: Iteration, z: Iteration)
    requires y.index == 1
    ensures var b := Binder(None, None, map[], map[], [Some(x), Some(y), Some(z)], None, [], None, 10);
      && Shuffle(b, [2, 0, 1]).Success?
      && var b1 := Shuffle(b, [2, 0, 1]).value.binder;
      && UpdateReady(b1, Arr(3))
      && var its := Update(b1, Arr(3)).binder.iterations;
      && |its| == 3 && its[0].Some? && its[1].Some?
      && its[0].value.id == y.id && its[0].value.index == 1 && its[1].value.id == z.id
      && FindNextNode(its, its[0].value) == FirstNodeOf(x.id)
  {
    var b := Binder(None, None, map[], map[], [Some(x), Some(y), Some(z)], None, [], None, 10);
    var ni := [2, 0, 1];
    assert b.pending.None? && ShuffleInput(ni, b.iterations);
    PermutationCycle(b, ni);
    var us := Units(b.iterations);
    assert us[0] == x && us[1] == y && us[2] == z;
    var its := Update(Shuffle(b, ni).value.binder, Arr(3)).binder.iterations;
    assert its[ni[0]] == Some(Moved(us[0], 0, ni[0]));
    assert its[ni[1]] == Some(Moved(us[1], 1, ni[1]));
    assert its[ni[2]] == Some(Moved(us[2], 2, ni[2]));
  }
}

=== FILE: effects.dfy ===
/** The effects a repeated section has on its child fragments and on the
    document, recorded as an event log, and a summary of such a log. */
module Effects {
  import opened Collection

  /** The node a batch of rendered nodes is inserted before. */
  datatype Anchor =
    | FirstNodeOf(id: nat)     // first node of a live child fragment
    | ParentNextAfterSelf      // the parent fragment's next node after this section
    | OwnerNext                // the owning section item's own next node

  datatype Event =
    | Create(id: nat, key: Key, index: nat)   // new child bound to the model joined at `key`
    | Destroy(id: nat)                        // unbind, then unrender and destroy
    | Rebind(id: nat, index: nat)             // rebind to the model joined at `index`
    | Refresh(id: nat)                        // the child's own update
    | Insert(batch: seq<nat>, anchor: Anchor) // rendered children, in order, inserted before `anchor`
    | Bubble                                  // the owner is told the section changed

  /** What a log amounts to, by kind of event, each in log order. */
  datatype Summary = Summary(
    created: seq<nat>,
    destroyed: seq<nat>,
    rebound: seq<(nat, nat)>,
    refreshed: seq<nat>,
    inserts: seq<(seq<nat>, Anchor)>,
    bubbles: nat)
  {
    function Plus(other: Summary): Summary {
      Summary(created + other.created, destroyed + other.destroyed,
              rebound + other.rebound, refreshed + other.refreshed,
              inserts + other.inserts, bubbles + other.bubbles)
    }
  }

  const Nothing := Summary([], [], [], [], [], 0)

  function Count(e: Event): Summary {
    match e
    case Create(id, _, _) => Nothing.(created := [id])
    case Destroy(id) => Nothing.(destroyed := [id])
    case Rebind(id, index) => Nothing.(rebound := [(id, index)])
    case Refresh(id) => Nothing.(refreshed := [id])
    case Insert(batch, anchor) => Nothing.(inserts := [(batch, anchor)])
    case Bubble => Nothing.(bubbles := 1)
  }

  function Summarize(log: seq<Event>): Summary {
    if |log| == 0 then Nothing else Count(log[0]).Plus(Summarize(log[1..]))
  }

  lemma PlusAssoc(x: Summary, y: Summary, z: Summary)
    ensures x.Plus(y).Plus(z) == x.Plus(y.Plus(z))
  {
    assert x.created + y.created + z.created == x.created + (y.created + z.created);
    assert x.destroyed + y.destroyed + z.destroyed == x.destroyed + (y.destroyed + z.destroyed);
    assert x.rebound + y.rebound + z.rebound == x.rebound + (y.rebound + z.rebound);
    assert x.refreshed + y.refreshed + z.refreshed == x.refreshed + (y.refreshed + z.refreshed);
    assert x.inserts + y.inserts + z.inserts == x.inserts + (y.inserts + z.inserts);
  }

  lemma NothingPlus(x: Summary)
    ensures Nothing.Plus(x) == x
  {
    assert [] + x.created == x.created;
    assert [] + x.destroyed == x.destroyed;
    assert [] + x.rebound == x.rebound;
    assert [] + x.refreshed == x.refreshed;
    assert [] + x.inserts == x.inserts;
  }

  lemma {:induction false} SummarizeAppend(a: seq<Event>, b: seq<Event>)
    ensures Summarize(a + b) == Summarize(a).Plus(Summarize(b))
  {
    if |a| == 0 {
      assert a + b == b;
      NothingPlus(Summarize(b));
    } else {
      assert (a + b)[1..] == a[1..] + b;
      assert (a + b)[0] == a[0];
      SummarizeAppend(a[1..], b);
      PlusAssoc(Count(a[0]), Summarize(a[1..]), Summarize(b));
    }
  }

  /** All nodes inserted by a list of inserts, in insertion order. */
  function Flatten(inserts: seq<(seq<nat>, Anchor)>): seq<nat> {
    if |inserts| == 0 then [] else inserts[0].0 + Flatten(inserts[1..])
  }

  lemma {:induction false} FlattenAppend(a: seq<(seq<nat>, Anchor)>, b: seq<(seq<nat>, Anchor)>)
    ensures Flatten(a + b) == Flatten(a) + Flatten(b)
  {
    if |a| == 0 {
      assert a + b == b;
    } else {
      assert (a + b)[1..] == a[1..] + b;
      FlattenAppend(a[1..], b);
    }
  }

  /** `n` consecutive ids starting at `from`. */
  function Range(from: nat, n: nat): (r: seq<nat>)
    ensures |r| == n && forall k | 0 <= k < n :: r[k] == from + k
  {
    seq(n, k requires 0 <= k < n => from + k)
  }

  function DestroyAll(ids: seq<nat>): seq<Event> {
    seq(|ids|, k requires 0 <= k < |ids| => Destroy(ids[k]))
  }

  function RefreshAll(ids: seq<nat>): seq<Event> {
    seq(|ids|, k requires 0 <= k < |ids| => Refresh(ids[k]))
  }

  lemma {:induction false} SummarizeDestroyAll(ids: seq<nat>)
    ensures Summarize(DestroyAll(ids)) == Nothing.(destroyed := ids)
  {
    var log := DestroyAll(ids);
    if |ids| > 0 {
      assert log[1..] == DestroyAll(ids[1..]);
      SummarizeDestroyAll(ids[1..]);
      var rest := Summarize(log[1..]);
      assert Count(log[0]) == Nothing.(destroyed := [ids[0]]);
      assert Summarize(log) == Count(log[0]).Plus(rest);
      assert ids == [ids[0]] + ids[1..];
    } else {
      assert log == [];
    }
  }

  lemma {:induction false} SummarizeRefreshAll(ids: seq<nat>)
    ensures Summarize(RefreshAll(ids)) == Nothing.(refreshed := ids)
  {
    var log := RefreshAll(ids);
    if |ids| > 0 {
      assert log[1..] == RefreshAll(ids[1..]);
      SummarizeRefreshAll(ids[1..]);
      var rest := Summarize(log[1..]);
      assert Count(log[0]) == Nothing.(refreshed := [ids[0]]);
      assert Summarize(log) == Count(log[0]).Plus(rest);
      assert ids == [ids[0]] + ids[1..];
    } else {
      assert log == [];
    }
  }
}

=== FILE: log_facts.dfy ===
/** How the event lists the section builds add up. */
module LogFacts {
  import opened Wrappers
  import opened Collection
  import opened Effects
  import opened RepeatedFragment

  lemma {:induction false} LiveIdsSomes(us: seq<Iteration>)
    ensures LiveIds(Somes(us)) == Ids(us)
  {
    if |us| > 0 {
      assert Somes(us)[1..] == Somes(us[1..]);
      LiveIdsSomes(us[1..]);
      assert Ids(us) == [us[0].id] + Ids(us[1..]);
    }
  }

  /** New iterations get consecutive identities from `nextId`. */
  lemma IdsArrayRun(b: Binder, start: nat, count: nat)
    ensures Ids(ArrayRun(b, start, count)) == Range(b.nextId, count)
  {
    var run := ArrayRun(b, start, count);
    forall k | 0 <= k < count ensures Ids(run)[k] == Range(b.nextId, count)[k] {
      assert run[k].id == b.nextId + k;
    }
  }

  lemma IdsKeyRun(b: Binder, names: seq<string>, start: nat)
    ensures Ids(KeyRun(b, names, start)) == Range(b.nextId, |names|)
  {
    var run := KeyRun(b, names, start);
    forall k | 0 <= k < |names| ensures Ids(run)[k] == Range(b.nextId, |names|)[k] {
      assert run[k].id == b.nextId + k;
    }
  }

  lemma {:induction false} LiveIdsAppend(a: seq<Option<Iteration>>, b: seq<Option<Iteration>>)
    ensures LiveIds(a + b) == LiveIds(a) + LiveIds(b)
  {
    if |a| == 0 {
      assert a + b == b;
    } else {
      var t := a[1..];
      var head := if a[0].Some? then [a[0].value.id] else [];
      assert (a + b)[0] == a[0] && (a + b)[1..] == t + b;
      LiveIdsAppend(t, b);
      assert LiveIds(a + b) == head + LiveIds(t + b);
      assert LiveIds(a) == head + LiveIds(t);
    }
  }

  lemma {:induction false} SummarizeCreateEvents(us: seq<Iteration>)
    ensures Summarize(CreateEvents(us)) == Nothing.(created := Ids(us))
  {
    if |us| > 0 {
      var t := us[1..];
      CreateEventsCons(us);
      SummarizeCreateEvents(t);
      IdsCons(us);
    } else {
      assert CreateEvents(us) == [];
    }
  }

  lemma CreateEventsCons(us: seq<Iteration>)
    requires |us| > 0
    ensures Summarize(CreateEvents(us)) == Nothing.(created := [us[0].id]).Plus(Summarize(CreateEvents(us[1..])))
  {
    var log := CreateEvents(us);
    assert log[1..] == CreateEvents(us[1..]);
  }

  lemma IdsCons(us: seq<Iteration>)
    requires |us| > 0
    ensures Ids(us) == [us[0].id] + Ids(us[1..])
  {
  }

  lemma SummarizeOne(e: Event)
    ensures Summarize([e]) == Count(e)
  {
    assert [e][1..] == [];
    assert Summarize([e]) == Count(e).Plus(Nothing);
    var c := Count(e);
    assert c.created + [] == c.created;
    assert c.destroyed + [] == c.destroyed;
    assert c.rebound + [] == c.rebound;
    assert c.refreshed + [] == c.refreshed;
    assert c.inserts + [] == c.inserts;
  }

  /** Removal followed by refresh, as both update branches begin. */
  lemma SummarizeHead(d: seq<nat>, r: seq<nat>)
    ensures Summarize(DestroyAll(d) + RefreshAll(r)) == Nothing.(destroyed := d, refreshed := r)
  {
    SummarizeAppend(DestroyAll(d), RefreshAll(r));
    SummarizeDestroyAll(d);
    SummarizeRefreshAll(r);
    assert d + [] == d && [] + r == r;
  }

  /** Removal, refresh, creation and one insert of the created ones. */
  lemma SummarizeGrow(d: seq<nat>, r: seq<nat>, run: seq<Iteration>, anchor: Anchor)
    ensures Summarize(DestroyAll(d) + RefreshAll(r) + CreateEvents(run) + [Insert(Ids(run), anchor)])
         == Nothing.(destroyed := d, refreshed := r, created := Ids(run), inserts := [(Ids(run), anchor)])
  {
    var x := Insert(Ids(run), anchor);
    SummarizeFour(DestroyAll(d), RefreshAll(r), CreateEvents(run), [x]);
    SummarizeDestroyAll(d);
    SummarizeRefreshAll(r);
    SummarizeCreateEvents(run);
    SummarizeOne(x);
    PlusGrow(d, r, Ids(run), (Ids(run), anchor));
  }

  /** The sum of a removal, a refresh, a creation and an insert part. */
  lemma PlusGrow(d: seq<nat>, r: seq<nat>, ids: seq<nat>, x: (seq<nat>, Anchor))
    ensures Nothing.(destroyed := d).Plus(Nothing.(refreshed := r)).Plus(Nothing.(created := ids)).Plus(Nothing.(inserts := [x]))
         == Nothing.(destroyed := d, refreshed := r, created := ids, inserts := [x])
  {
    assert [] + ids == ids && d + [] + [] + [] == d && [] + r + [] + [] == r;
    assert [] + [] + [] + [x] == [x] && [] + [] + ids + [] == ids;
  }

  lemma SummarizeSnoc(log: seq<Event>, e: Event)
    ensures Summarize(log + [e]) == Summarize(log).Plus(Count(e))
  {
    SummarizeAppend(log, [e]);
    SummarizeOne(e);
  }

  lemma RangeSnoc(from: nat, n: nat)
    ensures Range(from, n) + [from + n] == Range(from, n + 1)
  {
  }

  lemma FlattenSnoc(inserts: seq<(seq<nat>, Anchor)>, x: (seq<nat>, Anchor))
    ensures Flatten(inserts + [x]) == Flatten(inserts) + x.0
  {
    FlattenAppend(inserts, [x]);
    assert [x][1..] == [];
    assert x.0 + [] == x.0;
  }

  lemma SummarizeFour(a: seq<Event>, b: seq<Event>, c: seq<Event>, d: seq<Event>)
    ensures Summarize(a + b + c + d) == Summarize(a).Plus(Summarize(b)).Plus(Summarize(c)).Plus(Summarize(d))
  {
    SummarizeAppend(a + b + c, d);
    SummarizeAppend(a + b, c);
    SummarizeAppend(a, b);
  }
}

=== FILE: numbering_proofs.dfy ===
/** Identities: every live child fragment, in the list and in the
    snapshot, has an identity below the next one to be handed out. Every
    operation keeps this, so an identity the section creates is never
    that of a child it already has. */
module NumberingProofs {
  import opened Wrappers
  import opened Collection
  import opened Effects
  import opened RepeatedFragment
  import opened UpdateProofs
  import opened ShuffleProofs
  import opened CompletionProofs

  predicate IdsBelow(its: seq<Option<Iteration>>, n: nat) {
    forall i | 0 <= i < |its| && its[i].Some? :: its[i].value.id < n
  }

  predicate Numbered(b: Binder) {
    IdsBelow(b.iterations, b.nextId) && IdsBelow(b.previous, b.nextId)
  }

  lemma BindNumbers(b: Binder, v: Value)
    requires Numbered(b)
    ensures Numbered(Bind(b, v).binder)
  {
  }

  lemma UpdateArrayNumbers(b: Binder, n: nat)
    requires Numbered(b)
    ensures Numbered(UpdateArray(b, n).binder)
  {
    var m := |b.iterations|;
    ArrayList(b, n);
    if n < m {
      PrefixBelow(b.iterations, n, b.nextId);
    } else {
      RunBelow(b, m, n - m);
      AppendBelow(b.iterations, Somes(ArrayRun(b, m, n - m)), b.nextId + (n - m));
    }
  }

  lemma PrefixBelow(its: seq<Option<Iteration>>, k: nat, n: nat)
    requires IdsBelow(its, n) && k <= |its|
    ensures IdsBelow(its[..k], n)
  {
    forall i | 0 <= i < k && its[..k][i].Some? ensures its[..k][i].value.id < n {
      assert its[..k][i] == its[i];
    }
  }

  lemma AppendBelow(a: seq<Option<Iteration>>, c: seq<Option<Iteration>>, n: nat)
    requires forall i | 0 <= i < |a| && a[i].Some? :: a[i].value.id < n
    requires IdsBelow(c, n)
    ensures IdsBelow(a + c, n)
  {
    forall i | 0 <= i < |a + c| && (a + c)[i].Some? ensures (a + c)[i].value.id < n {
      if i >= |a| {
        assert (a + c)[i] == c[i - |a|];
      }
    }
  }

  /** New array iterations take the identities just below the advanced
      next identity. */
  lemma RunBelow(b: Binder, start: nat, count: nat)
    ensures IdsBelow(Somes(ArrayRun(b, start, count)), b.nextId + count)
  {
    var run := ArrayRun(b, start, count);
    forall k | 0 <= k < count ensures Somes(run)[k].value.id < b.nextId + count {
      assert run[k].id == b.nextId + k;
    }
  }

  lemma UpdateKeyedNumbers(b: Binder, keys: seq<string>)
    requires Numbered(b) && Dense(b.iterations)
    ensures Numbered(UpdateKeyed(b, keys).binder)
  {
    var s := UpdateKeyed(b, keys);
    var us := Units(b.iterations);
    var kept := Survivors(us, keys);
    var added := if |keys| > |kept| then NewKeys(keys, NameSet(kept)) else [];
    var run := KeyRun(b, added, |kept|);
    UpdateKeyedRemoves(b, keys);
    UpdateKeyedAppends(b, keys);
    var out := Units(s.binder.iterations);
    assert out == kept + run;
    forall i | 0 <= i < |out| ensures out[i].id < s.binder.nextId {
      if i < |kept| {
        assert out[i] == kept[i] && kept[i] in multiset(kept);
        assert kept[i] in multiset(us);
        var k :| 0 <= k < |us| && us[k] == kept[i];
        assert b.iterations[k] == Some(us[k]);
      } else {
        assert out[i] == run[i - |kept|];
      }
    }
    assert forall i | 0 <= i < |s.binder.iterations| :: s.binder.iterations[i] == Some(out[i]);
  }

  lemma UpdateOtherNumbers(b: Binder)
    requires Numbered(b)
    ensures Numbered(UpdateOther(b).binder)
  {
  }

  lemma ShuffleNumbers(b: Binder, ni: seq<int>)
    requires Numbered(b) && b.pending.None? && ShuffleInput(ni, b.iterations)
    ensures Shuffle(b, ni).Success? && Numbered(Shuffle(b, ni).value.binder)
  {
    var us := Units(b.iterations);
    var its := Shuffle(b, ni).value.binder.iterations;
    ShuffleRecords(b, ni);
    forall j | 0 <= j < |its| && its[j].Some? ensures its[j].value.id < b.nextId {
      assert Targeted(ni, j);
      var i :| 0 <= i < |ni| && ni[i] == j;
      assert its[j].value.(dirty := us[i].dirty) == us[i];
      assert b.iterations[i] == Some(us[i]);
    }
  }

  lemma CompletionNumbers(b: Binder, value: Value)
    requires Numbered(b) && b.pending.Some? && PendingInput(b.pending.value, b.previous)
    ensures Numbered(UpdatePostShuffle(b, value).binder)
  {
    var s := UpdatePostShuffle(b, value);
    CompletionList(b, value);
    var len := ArrayLength(value);
    var r := s.binder.iterations;
    forall j | 0 <= j < |r| && r[j].Some? ensures r[j].value.id < s.binder.nextId {
      if j < |b.iterations| && (j >= len || b.iterations[j].Some?) {
        assert r[j] == b.iterations[j];
      } else {
        assert Made(b, r[j], j, b.nextId, s.binder.nextId);
      }
    }
  }

  /** Completion never recreates a snapshot iteration: each identity it
      creates is new. */
  lemma CompletionCreatesNew(b: Binder, value: Value)
    requires Numbered(b) && b.pending.Some? && PendingInput(b.pending.value, b.previous)
    ensures var s := UpdatePostShuffle(b, value);
      forall x, i | x in Summarize(s.log).created && 0 <= i < |b.previous| && b.previous[i].Some? ::
        b.previous[i].value.id != x
  {
    CompletionLog(b, value);
  }

  /** Once completed, the section accepts a new shuffle. */
  lemma CompletionThenShuffle(b: Binder, value: Value, ni: seq<int>)
    requires b.pending.Some? && PendingInput(b.pending.value, b.previous)
    requires ShuffleInput(ni, UpdatePostShuffle(b, value).binder.iterations)
    ensures Shuffle(UpdatePostShuffle(b, value).binder, ni).Success?
  {
    CompletionList(b, value);
  }
}

=== FILE: queries.dfy ===
/** The read-only operations of a repeated section: where the node after
    an iteration is, the section's first node, the searches delegated to
    the iterations in order, and the HTML string of the whole section. */
module Queries {
  import opened Wrappers
  import opened Collection
  import opened Effects
  import opened RepeatedFragment
  import opened LogFacts

  // ---------------------------------------------------------------------
  // findNextNode / firstNode

  /** The node after an iteration, found through the index it was stamped
      with: the first node of the iteration at the next position, or, for
      the last position, the owner's next node. The slot at the next
      position must be live (a hole there throws). */
  function FindNextNode(its: seq<Option<Iteration>>, u: Iteration): (r: Anchor)
    requires u.index + 1 < |its| ==> its[u.index + 1].Some?
    ensures r.FirstNodeOf? || r.OwnerNext?
  {
    if u.index + 1 < |its| then FirstNodeOf(its[u.index + 1].value.id) else OwnerNext
  }

  /** The section's first node: that of its first iteration, or none when
      the first slot is empty or there are no iterations. */
  function FirstNode(its: seq<Option<Iteration>>): (r: Option<Anchor>)
    ensures r.Some? ==> r.value.FirstNodeOf?
  {
    if |its| > 0 && its[0].Some? then Some(FirstNodeOf(its[0].value.id)) else None
  }

  /** While the list mirrors an array or object, the node after the
      iteration at position k is the first node of the iteration at k+1,
      and after the last one the owner's next node: the stamped index and
      the position agree. */
  lemma NextNodeInOrder(its: seq<Option<Iteration>>, v: Value, k: nat)
    requires Mirrors(its, v) && k < |its|
    ensures its[k].Some?
    ensures k + 1 < |its| ==> FindNextNode(its, its[k].value) == FirstNodeOf(its[k + 1].value.id)
    ensures k + 1 == |its| ==> FindNextNode(its, its[k].value) == OwnerNext
  {
  }

  /** While the list mirrors its value, the section has a first node
      exactly when the value has an entry, and it is that of the
      iteration for the first entry. */
  lemma FirstNodeInOrder(its: seq<Option<Iteration>>, v: Value)
    requires Mirrors(its, v)
    ensures FirstNode(its).None? <==> |its| == 0
    ensures |its| > 0 ==> its[0].Some? && its[0].value.index == 0 && FirstNode(its) == Some(FirstNodeOf(its[0].value.id))
  {
  }

  /** An object update does not renumber the survivors, so after a removal
      the stamped index no longer matches the position: here the survivor
      now at position 0 still carries index 1, and the node after it is
      taken to be the owner's next node although another iteration follows
      it. */
  lemma StaleIndexAfterRemoval(a: Iteration, c: Iteration, d: Iteration)
    requires a.key == Name("a") && c.key == Name("c") && c.index == 1 && d.key == Name("d")
    ensures var its := UpdateKeyed(Binder(None, None, map[], map[], [Some(a), Some(c)], None, [], None, 10),
                                   ["c", "d"]).binder.iterations;
      && |its| == 2 && its[0] == Some(c)
      && its[1].Some? && its[1].value.key == Name("d") && its[1].value.index == 1
      && FindNextNode(its, c) == OwnerNext
  {
    var b := Binder(None, None, map[], map[], [Some(a), Some(c)], None, [], None, 10);
    var us := Units(b.iterations);
    assert us == [a, c];
    assert us[..1] == [a] && [a][..0] == [];
    assert !HasKey(["c", "d"], a.key);
    assert HasKey(["c", "d"], c.key);
    assert Survivors([a], ["c", "d"]) == Survivors([], ["c", "d"]) + [];
    assert Survivors(us, ["c", "d"]) == Survivors([a], ["c", "d"]) + [c];
    assert NameSet([c]) == {"c"};
    assert NewKeys(["c", "d"], {"c"}) == ["d"];
    var kept := Survivors(us, ["c", "d"]);
    assert kept == [c];
    assert NewKeys(["c", "d"], NameSet(kept)) == ["d"];
    var run := KeyRun(b, ["d"], 1);
    assert run[0].key == Name("d") && run[0].index == 1;
    var its := UpdateKeyed(b, ["c", "d"]).binder.iterations;
    assert its == Somes([c] + run);
    assert its[0] == Some(c) && its[1] == Some(run[0]);
  }

  // ---------------------------------------------------------------------
  // find / findComponent, findAll / findAllComponents

  /** The slots before position i are all live and none has a result. */
  predicate Misses<R>(its: seq<Option<Iteration>>, query: Iteration -> Option<R>, i: nat) {
    forall j | 0 <= j < i && j < |its| :: its[j].Some? && query(its[j].value).None?
  }

  /** The search reaches no hole: every slot it comes to before a hit is
      live. Holes after the first hit are never read. */
  predicate HitBeforeHole<R>(its: seq<Option<Iteration>>, query: Iteration -> Option<R>) {
    forall i | 0 <= i < |its| && Misses(its, query, i) :: its[i].Some?
  }

  /** The first result any iteration gives for a query, asking them in
      position order; `query` stands for the child fragment's own search
      (for an element selector or a component name). */
  method Find<R>(its: seq<Option<Iteration>>, query: Iteration -> Option<R>) returns (found: Option<R>)
    requires HitBeforeHole(its, query)
    ensures found.None? <==> forall i | 0 <= i < |its| :: its[i].Some? && query(its[i].value).None?
    ensures found.Some? ==> exists i | 0 <= i < |its| ::
      && its[i].Some? && found == query(its[i].value)
      && Misses(its, query, i)
  {
    var i := 0;
    while i < |its|
      invariant 0 <= i <= |its|
      invariant Misses(its, query, i)
    {
      var r := query(its[i].value);
      if r.Some? {
        return r;
      }
      i := i + 1;
    }
    return None;
  }

  /** A hole after the first hit does not stop the search. */
  lemma HoleAfterHit<R>(a: Iteration, query: Iteration -> Option<R>)
    requires query(a).Some?
    ensures HitBeforeHole([Some(a), None], query)
  {
    assert !Misses([Some(a), None], query, 1) by {
      assert query([Some(a), None][0].value).Some?;
    }
  }

  /** Everything a query finds in the iterations, in position order. */
  function Collect<R>(us: seq<Iteration>, query: Iteration -> seq<R>): seq<R> {
    if |us| == 0 then [] else query(us[0]) + Collect(us[1..], query)
  }

  lemma {:induction false} CollectAppend<R>(a: seq<Iteration>, b: seq<Iteration>, query: Iteration -> seq<R>)
    ensures Collect(a + b, query) == Collect(a, query) + Collect(b, query)
  {
    if |a| == 0 {
      assert a + b == b;
    } else {
      assert (a + b)[1..] == a[1..] + b;
      CollectAppend(a[1..], b, query);
    }
  }

  /** Each iteration, in position order, appends what it finds to the
      shared result list. */
  method FindAll<R>(its: seq<Option<Iteration>>, query: Iteration -> seq<R>, result: seq<R>) returns (out: seq<R>)
    requires Dense(its)
    ensures out == result + Collect(Units(its), query)
  {
    var us := Units(its);
    out := result;
    var i := 0;
    while i < |its|
      invariant 0 <= i <= |its|
      invariant out == result + Collect(us[..i], query)
    {
      CollectAppend(us[..i], [us[i]], query);
      assert us[..i + 1] == us[..i] + [us[i]];
      assert Collect([us[i]], query) == query(us[i]) + Collect([], query);
      out := out + query(its[i].value);
      i := i + 1;
    }
    assert us[..|its|] == us;
  }

  // ---------------------------------------------------------------------
  // toString

  /** The section as an HTML string: each iteration's string, escaped or
      not, joined with nothing in between; a hole contributes nothing, as
      joining an array skips its holes. */
  function ToHtml(its: seq<Option<Iteration>>, escape: bool,
                  plain: Iteration -> string, escaped: Iteration -> string): string
  {
    if |its| == 0 then ""
    else (if its[0].None? then "" else if escape then escaped(its[0].value) else plain(its[0].value))
         + ToHtml(its[1..], escape, plain, escaped)
  }

  /** The string of a list is the strings of its parts, in order. */
  lemma {:induction false} ToHtmlAppend(a: seq<Option<Iteration>>, b: seq<Option<Iteration>>, escape: bool,
                                        plain: Iteration -> string, escaped: Iteration -> string)
    ensures ToHtml(a + b, escape, plain, escaped) == ToHtml(a, escape, plain, escaped) + ToHtml(b, escape, plain, escaped)
  {
    if |a| == 0 {
      assert a + b == b;
    } else {
      assert (a + b)[1..] == a[1..] + b;
      ToHtmlAppend(a[1..], b, escape, plain, escaped);
    }
  }

  /** A hole contributes nothing, and an iteration its own string in the
      requested form. */
  lemma ToHtmlOne(x: Option<Iteration>, escape: bool, plain: Iteration -> string, escaped: Iteration -> string)
    ensures x.None? ==> ToHtml([x], escape, plain, escaped) == ""
    ensures x.Some? ==> ToHtml([x], escape, plain, escaped) == if escape then escaped(x.value) else plain(x.value)
  {
    assert [x][1..] == [];
  }

  /** Removing a hole does not change the string. */
  lemma ToHtmlSkipsHole(a: seq<Option<Iteration>>, b: seq<Option<Iteration>>, escape: bool,
                        plain: Iteration -> string, escaped: Iteration -> string)
    ensures ToHtml(a + [None] + b, escape, plain, escaped) == ToHtml(a + b, escape, plain, escaped)
  {
    ToHtmlAppend(a + [None], b, escape, plain, escaped);
    ToHtmlAppend(a, [None], escape, plain, escaped);
    ToHtmlAppend(a, b, escape, plain, escaped);
    ToHtmlOne(None, escape, plain, escaped);
  }

  // ---------------------------------------------------------------------
  // rebind

  /** Rebinding to an array rebinds each live iteration, in position
      order, to the model at its position, and does nothing else; to any
      other value it does nothing. */
  lemma RebindFromSpec(its: seq<Option<Iteration>>, from: nat)
    ensures var s := Summarize(RebindFrom(its, from));
      && s == Nothing.(rebound := s.rebound)
      && |s.rebound| == |LiveIds(its)|
      && forall p :: p in s.rebound <==> exists i :: 0 <= i < |its| && its[i].Some? && p == (its[i].value.id, from + i)
  {
    RebindFromOnly(its, from);
    RebindFromPairs(its, from);
  }

  /** Some live entry, at position i, is the pair `p` of its identity
      and `from + i`. */
  predicate LiveAt(its: seq<Option<Iteration>>, from: nat, p: (nat, nat)) {
    exists i :: 0 <= i < |its| && its[i].Some? && p == (its[i].value.id, from + i)
  }

  /** The first step of a rebind walk. */
  lemma RebindFromCons(its: seq<Option<Iteration>>, from: nat)
    requires |its| > 0
    ensures Summarize(RebindFrom(its, from))
         == Nothing.(rebound := if its[0].Some? then [(its[0].value.id, from)] else [])
              .Plus(Summarize(RebindFrom(its[1..], from + 1)))
  {
    var head := if its[0].Some? then [Rebind(its[0].value.id, from)] else [];
    assert RebindFrom(its, from) == head + RebindFrom(its[1..], from + 1);
    SummarizeAppend(head, RebindFrom(its[1..], from + 1));
    if its[0].Some? {
      SummarizeOne(head[0]);
    } else {
      assert Summarize(head) == Nothing;
    }
  }

  /** A rebind walk rebinds once per live entry and does nothing else. */
  lemma {:induction false} RebindFromOnly(its: seq<Option<Iteration>>, from: nat)
    ensures var s := Summarize(RebindFrom(its, from));
      s == Nothing.(rebound := s.rebound) && |s.rebound| == |LiveIds(its)|
    decreases |its|
  {
    if |its| > 0 {
      RebindFromCons(its, from);
      RebindFromOnly(its[1..], from + 1);
    } else {
      assert RebindFrom(its, from) == [];
    }
  }

  /** A rebind walk rebinds each live entry to its own position. */
  lemma {:induction false} RebindFromPairs(its: seq<Option<Iteration>>, from: nat)
    ensures forall p :: p in Summarize(RebindFrom(its, from)).rebound <==> LiveAt(its, from, p)
    decreases |its|
  {
    if |its| > 0 {
      var hd := if its[0].Some? then [(its[0].value.id, from)] else [];
      var sr := Summarize(RebindFrom(its[1..], from + 1)).rebound;
      RebindFromCons(its, from);
      assert Summarize(RebindFrom(its, from)).rebound == hd + sr;
      RebindFromPairs(its[1..], from + 1);
      forall p ensures p in hd + sr <==> LiveAt(its, from, p) {
        LiveAtShift(its, from, p);
      }
    } else {
      assert RebindFrom(its, from) == [];
    }
  }

  /** A live pair is the first entry's, or one of the rest's. */
  lemma LiveAtShift(its: seq<Option<Iteration>>, from: nat, p: (nat, nat))
    requires |its| > 0
    ensures LiveAt(its, from, p) <==>
      (its[0].Some? && p == (its[0].value.id, from)) || LiveAt(its[1..], from + 1, p)
  {
    var rest := its[1..];
    if LiveAt(rest, from + 1, p) {
      var i :| 0 <= i < |rest| && rest[i].Some? && p == (rest[i].value.id, from + 1 + i);
      assert its[i + 1] == rest[i];
    }
    if LiveAt(its, from, p) {
      var i :| 0 <= i < |its| && its[i].Some? && p == (its[i].value.id, from + i);
      if i > 0 {
        assert rest[i - 1] == its[i];
      }
    }
  }

  lemma RebindAllSpec(b: Binder, v: Value)
    ensures var s := Summarize(RebindAll(b, v));
      && s == Nothing.(rebound := s.rebound)
      && (v.Arr? ==> forall p :: p in s.rebound <==>
            exists i :: 0 <= i < |b.iterations| && b.iterations[i].Some? && p == (b.iterations[i].value.id, i))
      && (!v.Arr? ==> s.rebound == [])
  {
    RebindFromSpec(b.iterations, 0);
  }
}

=== FILE: repeated_fragment.dfy ===
/** The repeated section of a template (`{{#each ...}}`): one child
    fragment, an iteration, per entry of the bound array or object, kept in
    step with the value by bind, update and the two-phase shuffle. Each
    operation returns the new section state and the log of its effects on
    the child fragments and on the document. */
module RepeatedFragment {
  import opened Wrappers
  import opened Collection
  import opened Scope
  import opened Effects

  /** One child fragment. `id` is the identity of the fragment instance;
      `key` and `index` are what the section stamped on it when it made it. */
  datatype Iteration = Iteration(
    id: nat,
    key: Key,
    index: nat,
    dirty: bool,
    keyRefs: map<string, Key>,
    indexRefs: map<string, nat>)

  /** The state of one repeated section. `iterations` may have holes while
      a shuffle is pending; `previous` is the list as it was when the
      pending shuffle was issued; `nextId` is the identity the next
      child fragment gets. */
  datatype Binder = Binder(
    keyRef: Option<string>,
    indexRef: Option<string>,
    outerKeyRefs: map<string, Key>,
    outerIndexRefs: map<string, nat>,
    iterations: seq<Option<Iteration>>,
    pending: Option<seq<int>>,
    previous: seq<Option<Iteration>>,
    indexByKey: Option<map<string, nat>>,
    nextId: nat)

  /** A new section state and the effects that produced it, in order. */
  datatype Step = Step(binder: Binder, log: seq<Event>)

  /** The state the constructor leaves: nothing bound, nothing pending. */
  predicate Constructed(b: Binder) {
    b.iterations == [] && b.pending.None? && b.indexByKey.None?
  }

  predicate Dense(its: seq<Option<Iteration>>) {
    forall i | 0 <= i < |its| :: its[i].Some?
  }

  function Somes(us: seq<Iteration>): (its: seq<Option<Iteration>>)
    ensures |its| == |us| && Dense(its)
    ensures forall i | 0 <= i < |us| :: its[i] == Some(us[i])
  {
    seq(|us|, i requires 0 <= i < |us| => Some(us[i]))
  }

  function Units(its: seq<Option<Iteration>>): (us: seq<Iteration>)
    requires Dense(its)
    ensures |us| == |its|
    ensures forall i | 0 <= i < |its| :: its[i] == Some(us[i])
  {
    seq(|its|, i requires 0 <= i < |its| => its[i].value)
  }

  function Ids(us: seq<Iteration>): (r: seq<nat>)
    ensures |r| == |us| && forall i | 0 <= i < |us| :: r[i] == us[i].id
  {
    seq(|us|, i requires 0 <= i < |us| => us[i].id)
  }

  /** Ids of the live entries of a possibly sparse list, in position
      order; `forEach` skips the holes the same way. */
  function LiveIds(its: seq<Option<Iteration>>): seq<nat> {
    if |its| == 0 then []
    else (if its[0].Some? then [its[0].value.id] else []) + LiveIds(its[1..])
  }

  function CreateEvents(us: seq<Iteration>): seq<Event> {
    seq(|us|, i requires 0 <= i < |us| => Create(us[i].id, us[i].key, us[i].index))
  }

  /** The list mirrors the value: one live iteration per entry, in entry
      order, each stamped with the entry's key and its position. */
  ghost predicate Mirrors(its: seq<Option<Iteration>>, v: Value) {
    match v
    case Arr(n) =>
      && |its| == n
      && forall i | 0 <= i < n :: its[i].Some? && its[i].value.key == Index(i) && its[i].value.index == i
    case Obj(keys) =>
      && |its| == |keys|
      && forall i | 0 <= i < |keys| :: its[i].Some? && its[i].value.key == Name(keys[i]) && its[i].value.index == i
    case Other =>
      its == []
  }

  // ---------------------------------------------------------------------
  // createIteration

  /** A new child fragment for one entry, with identity `id`. Its alias
      scopes extend the enclosing ones with the key and the index; it is
      bound to the model joined at `key` (the Create event says so). */
  function MakeIteration(b: Binder, id: nat, key: Key, index: nat): Iteration {
    Iteration(id, key, index, false,
              GetRefs(b.keyRef, key, b.outerKeyRefs),
              GetRefs(b.indexRef, index, b.outerIndexRefs))
  }

  /** Iterations for the array positions start .. start+count-1, with
      consecutive identities from `b.nextId`. */
  function ArrayRun(b: Binder, start: nat, count: nat): (r: seq<Iteration>)
    ensures |r| == count
    ensures forall k | 0 <= k < count :: r[k] == MakeIteration(b, b.nextId + k, Index(start + k), start + k)
  {
    seq(count, k requires 0 <= k < count => MakeIteration(b, b.nextId + k, Index(start + k), start + k))
  }

  /** Iterations for the listed property names, positioned from `start`,
      with consecutive identities from `b.nextId`. */
  function KeyRun(b: Binder, names: seq<string>, start: nat): (r: seq<Iteration>)
    ensures |r| == |names|
    ensures forall k | 0 <= k < |names| :: r[k] == MakeIteration(b, b.nextId + k, Name(names[k]), start + k)
  {
    seq(|names|, k requires 0 <= k < |names| => MakeIteration(b, b.nextId + k, Name(names[k]), start + k))
  }

  // ---------------------------------------------------------------------
  // bind

  /** Position of each key; a later duplicate would overwrite an earlier
      one, as assignment into an object does. */
  function IndexMap(keys: seq<string>): map<string, nat>
    decreases |keys|
  {
    if |keys| == 0 then map[]
    else IndexMap(keys[..|keys| - 1])[keys[|keys| - 1] := |keys| - 1]
  }

  /** The aliases the object branch of bind uses: a declared index alias
      is split on its comma into key alias and index alias. */
  function ObjectAliases(b: Binder): Binder {
    if Named(b.indexRef) then
      var (k, i) := SplitAlias(b.indexRef.value);
      b.(keyRef := k, indexRef := i)
    else b
  }

  function Bind(b: Binder, value: Value): Step {
    match value
    case Arr(n) =>
      var run := ArrayRun(b, 0, n);
      Step(b.(iterations := Somes(run), nextId := b.nextId + n), CreateEvents(run))
    case Obj(keys) =>
      var b1 := ObjectAliases(b);
      var run := KeyRun(b1, keys, 0);
      Step(b1.(iterations := Somes(run), indexByKey := Some(IndexMap(keys)), nextId := b.nextId + |keys|),
           CreateEvents(run))
    case Other =>
      Step(b, [])
  }

  // ---------------------------------------------------------------------
  // update

  /** What update needs of the state: a pending shuffle must have been
      recorded consistently, and an object scan reads every entry. */
  predicate UpdateReady(b: Binder, value: Value) {
    if b.pending.Some? then PendingInput(b.pending.value, b.previous)
    else value.Obj? ==> Dense(b.iterations)
  }

  /** Shuffle completion needs a snapshot entry per permutation entry. */
  predicate PendingInput(newIndices: seq<int>, previous: seq<Option<Iteration>>) {
    && |newIndices| == |previous|
    && Dense(previous)
    && forall i | 0 <= i < |newIndices| :: newIndices[i] >= -1
  }

  function Update(b: Binder, value: Value): Step
    requires UpdateReady(b, value)
  {
    if b.pending.Some? then UpdatePostShuffle(b, value)
    else match value
      case Arr(n) => UpdateArray(b, n)
      case Obj(keys) => UpdateKeyed(b, keys)
      case Other => UpdateOther(b)
  }

  /** Array value: drop the iterations past the new length, refresh the
      rest, and append one iteration per new position. */
  function UpdateArray(b: Binder, n: nat): Step {
    var its := b.iterations;
    var kept := if |its| > n then its[..n] else its;
    var removed := if |its| > n then its[n..] else [];
    var head := DestroyAll(LiveIds(removed)) + RefreshAll(LiveIds(kept));
    if n > |kept| then
      var run := ArrayRun(b, |kept|, n - |kept|);
      Step(b.(iterations := kept + Somes(run), nextId := b.nextId + |run|),
           head + CreateEvents(run) + [Insert(Ids(run), ParentNextAfterSelf)])
    else
      Step(b.(iterations := kept), head)
  }

  /** The iterations the backward scan keeps, in their original order. */
  function Survivors(us: seq<Iteration>, keys: seq<string>): seq<Iteration>
    decreases |us|
  {
    if |us| == 0 then []
    else
      var last := us[|us| - 1];
      Survivors(us[..|us| - 1], keys) + (if HasKey(keys, last.key) then [last] else [])
  }

  /** The iterations the backward scan removes, in the order it meets
      them: last position first. */
  function Removed(us: seq<Iteration>, keys: seq<string>): seq<Iteration>
    decreases |us|
  {
    if |us| == 0 then []
    else
      var last := us[|us| - 1];
      (if HasKey(keys, last.key) then [] else [last]) + Removed(us[..|us| - 1], keys)
  }

  /** The property names of the iterations' keys. */
  function NameSet(us: seq<Iteration>): set<string> {
    set u | u in us :: KeyName(u.key)
  }

  /** The keys, in order, that are not already taken. */
  function NewKeys(keys: seq<string>, taken: set<string>): seq<string> {
    if |keys| == 0 then []
    else (if keys[0] in taken then [] else [keys[0]]) + NewKeys(keys[1..], taken)
  }

  /** Object value: remove the iterations whose key is gone, refresh the
      rest, and append one iteration per key none of them has. Survivors
      keep their `index`, and the position map is left as it was. */
  function UpdateKeyed(b: Binder, keys: seq<string>): Step
    requires Dense(b.iterations)
  {
    var us := Units(b.iterations);
    var kept := Survivors(us, keys);
    var head := DestroyAll(Ids(Removed(us, keys))) + RefreshAll(Ids(kept));
    if |keys| > |kept| then
      var run := KeyRun(b, NewKeys(keys, NameSet(kept)), |kept|);
      Step(b.(iterations := Somes(kept + run), nextId := b.nextId + |run|),
           head + CreateEvents(run) + [Insert(Ids(run), ParentNextAfterSelf)])
    else
      Step(b.(iterations := Somes(kept)), head)
  }

  /** Any other value: every iteration is removed. */
  function UpdateOther(b: Binder): Step {
    Step(b.(iterations := []), DestroyAll(LiveIds(b.iterations)))
  }

  // ---------------------------------------------------------------------
  // shuffle

  /** What the caller of shuffle promises: one entry per iteration, each
      a new position or -1 for removed, no position used twice, and a
      list without holes. */
  predicate ShuffleInput(newIndices: seq<int>, its: seq<Option<Iteration>>) {
    && |newIndices| == |its|
    && Dense(its)
    && (forall i | 0 <= i < |newIndices| :: newIndices[i] >= -1)
    && (forall i, j | 0 <= i < j < |newIndices| && newIndices[i] >= 0 :: newIndices[i] != newIndices[j])
  }

  /** Assignment `arr[j] = x` into a JavaScript array: it grows with holes
      when `j` lies past the end. */
  function Assign(arr: seq<Option<Iteration>>, j: nat, x: Iteration): (r: seq<Option<Iteration>>)
    ensures |r| == if j < |arr| then |arr| else j + 1
    ensures r[j] == Some(x)
    ensures forall k | 0 <= k < |arr| && k != j :: r[k] == arr[k]
    ensures forall k | |arr| <= k < j :: r[k] == None
  {
    if j < |arr| then arr[j := Some(x)]
    else arr + seq(j - |arr|, _ => None) + [Some(x)]
  }

  /** The iteration moved from `from` to `to`, marked dirty when it moved. */
  function Moved(u: Iteration, from: nat, to: nat): Iteration {
    u.(dirty := u.dirty || from != to)
  }

  /** The new list: each iteration written at its new position, in order
      of old position, skipping the removed ones. */
  function Place(newIndices: seq<int>, us: seq<Iteration>): seq<Option<Iteration>>
    requires |newIndices| == |us|
    requires forall i | 0 <= i < |newIndices| :: newIndices[i] >= -1
    decreases |newIndices|
  {
    if |newIndices| == 0 then []
    else
      var last := |newIndices| - 1;
      var acc := Place(newIndices[..last], us[..last]);
      if newIndices[last] == -1 then acc
      else Assign(acc, newIndices[last], Moved(us[last], last, newIndices[last]))
  }

  const AlreadyShuffled := "Section was already shuffled!"

  /** First phase of a reorder: store the permutation and a snapshot, move
      the iterations to their new positions and tell the owner. Nothing
      is rebound or inserted yet. A second shuffle before completion
      throws. */
  function Shuffle(b: Binder, newIndices: seq<int>): Result<Step, string>
    requires b.pending.None? ==> ShuffleInput(newIndices, b.iterations)
  {
    if b.pending.Some? then Failure(AlreadyShuffled)
    else
      Success(Step(b.(pending := Some(newIndices),
                      previous := b.iterations,
                      iterations := Place(newIndices, Units(b.iterations))),
                   [Bubble]))
  }

  // ---------------------------------------------------------------------
  // updatePostShuffle

  /** One event per snapshot entry, by old position: removed ones are
      destroyed, the others rebound to the model at their new position. */
  function Retire(newIndices: seq<int>, prev: seq<Iteration>): seq<Event>
    requires |newIndices| == |prev|
    requires forall i | 0 <= i < |newIndices| :: newIndices[i] >= -1
  {
    seq(|newIndices|, i requires 0 <= i < |newIndices| =>
      if newIndices[i] == -1 then Destroy(prev[i].id) else Rebind(prev[i].id, newIndices[i] as nat))
  }

  /** The state of the creation walk: the list so far, the events so far,
      the rendered iterations waiting in the document fragment, and the
      next identity. */
  datatype Walk = Walk(iterations: seq<Option<Iteration>>, log: seq<Event>, queued: seq<nat>, nextId: nat)

  /** One position of the creation walk: an empty slot gets a new
      iteration whose output is queued; at an occupied slot the queue is
      flushed before that iteration's first node. */
  function Visit(b: Binder, i: nat, w: Walk): Walk {
    if i < |w.iterations| && w.iterations[i].Some? then
      var u := w.iterations[i].value;
      if |w.queued| > 0 then w.(log := w.log + [Insert(w.queued, FirstNodeOf(u.id))], queued := []) else w
    else
      var u := MakeIteration(b, w.nextId, Index(i), i);
      Walk(Assign(w.iterations, i, u), w.log + [Create(u.id, u.key, u.index)], w.queued + [u.id], w.nextId + 1)
  }

  /** The walk over positions i .. len-1. */
  function Fill(b: Binder, i: nat, len: nat, w: Walk): Walk
    decreases len - i
  {
    if i >= len then w else Fill(b, i + 1, len, Visit(b, i, w))
  }

  /** Second phase of a reorder, run by the next update. */
  function UpdatePostShuffle(b: Binder, value: Value): Step
    requires b.pending.Some? && PendingInput(b.pending.value, b.previous)
  {
    var ni := b.pending.value;
    var w := Fill(b, 0, ArrayLength(value), Walk(b.iterations, [], [], b.nextId));
    var tail := if |w.queued| > 0 then [Insert(w.queued, OwnerNext)] else [];
    Step(b.(iterations := w.iterations, pending := None, nextId := w.nextId),
         Retire(ni, Units(b.previous)) + w.log + RefreshAll(LiveIds(w.iterations)) + tail)
  }

  // ---------------------------------------------------------------------
  // rebind

  /** Rebind events for the live entries from position `from` on. */
  function RebindFrom(its: seq<Option<Iteration>>, from: nat): seq<Event>
    decreases |its|
  {
    if |its| == 0 then []
    else (if its[0].Some? then [Rebind(its[0].value.id, from)] else []) + RebindFrom(its[1..], from + 1)
  }

  /** Rebinding to a new context: for an array, each iteration is
      rebound to the model at its position; otherwise nothing happens. */
  function RebindAll(b: Binder, value: Value): seq<Event> {
    if value.Arr? then RebindFrom(b.iterations, 0) else []
  }
}

=== FILE: scope.dfy ===
/** Alias scopes of one iteration: the enclosing scope, extended with the
    section's key alias or index alias when one is declared. */
module Scope {
  import opened Wrappers

  /** An alias counts only when it is set and non-empty: the code checks
      the name for truthiness. */
  predicate Named(ref: Option<string>) {
    ref.Some? && ref.value != ""
  }

  /** Scope of one iteration for one alias kind. Without a name the
      enclosing scope itself is shared; with one, a copy of it gets the
      name bound to the value. The enclosing scope is a value and so is
      never changed. */
  function GetRefs<V>(ref: Option<string>, value: V, parent: map<string, V>): (r: map<string, V>)
    ensures !Named(ref) ==> r == parent
    ensures Named(ref) ==> r.Keys == parent.Keys + {ref.value} && r[ref.value] == value
    ensures Named(ref) ==> forall n | n in parent && n != ref.value :: r[n] == parent[n]
  {
    if Named(ref) then parent[ref.value := value] else parent
  }

  /** The text before the first comma (all of it when there is none),
      which is the first part of `split(',')`. */
  function Segment(s: string): string {
    if |s| == 0 || s[0] == ',' then [] else [s[0]] + Segment(s[1..])
  }

  /** The text after the first comma. */
  function AfterComma(s: string): string
    requires ',' in s
  {
    if s[0] == ',' then s[1..] else AfterComma(s[1..])
  }

  /** The key alias and index alias that the object branch of bind makes
      out of a declared index alias: the first two parts of the alias
      split on commas, the second missing when there is no comma. */
  function SplitAlias(alias: string): (Option<string>, Option<string>) {
    (Some(Segment(alias)), if ',' in alias then Some(Segment(AfterComma(alias))) else None)
  }

  lemma {:induction false} SegmentOf(a: string, rest: string)
    requires ',' !in a
    requires rest == [] || rest[0] == ','
    ensures Segment(a + rest) == a
  {
    if |a| > 0 {
      assert (a + rest)[1..] == a[1..] + rest;
      SegmentOf(a[1..], rest);
    } else {
      assert a + rest == rest;
    }
  }

  lemma {:induction false} AfterCommaOf(a: string, rest: string)
    requires ',' !in a
    ensures ',' in a + "," + rest
    ensures AfterComma(a + "," + rest) == rest
  {
    assert (a + "," + rest)[|a|] == ',';
    if |a| > 0 {
      assert (a + "," + rest)[1..] == a[1..] + "," + rest;
      AfterCommaOf(a[1..], rest);
    }
  }

  /** An alias without a comma becomes the key alias; the index alias is
      left undefined. */
  lemma {:induction false} SplitSingle(a: string)
    requires ',' !in a
    ensures SplitAlias(a) == (Some(a), None)
  {
    SegmentOf(a, []);
    assert a + [] == a;
  }

  /** `"k,i"` gives key alias `k` and index alias `i`; any further parts
      are ignored. */
  lemma {:induction false} SplitPair(k: string, i: string, rest: string)
    requires ',' !in k && ',' !in i
    requires rest == [] || rest[0] == ','
    ensures SplitAlias(k + "," + i + rest) == (Some(k), Some(i))
  {
    var s := k + "," + i + rest;
    assert s == k + ("," + i + rest);
    SegmentOf(k, "," + i + rest);
    assert s == k + "," + (i + rest);
    AfterCommaOf(k, i + rest);
    SegmentOf(i, rest);
  }
}

=== FILE: shuffle_proofs.dfy ===
/** What the first phase of a reorder does. */
module ShuffleProofs {
  import opened Wrappers
  import opened Collection
  import opened Effects
  import opened RepeatedFragment
  import opened LogFacts

  /** A permutation entry list as shuffle's caller promises it: each entry
      a new position or -1, and no position named twice. */
  predicate Moves(newIndices: seq<int>) {
    && (forall i | 0 <= i < |newIndices| :: newIndices[i] >= -1)
    && (forall i, j | 0 <= i < j < |newIndices| && newIndices[i] >= 0 :: newIndices[i] != newIndices[j])
  }

  /** Some entry moves an iteration to position `j`. */
  predicate Targeted(ni: seq<int>, j: int) {
    exists i :: 0 <= i < |ni| && ni[i] == j
  }

  lemma MovesPrefix(ni: seq<int>, k: nat)
    requires Moves(ni) && k <= |ni|
    ensures Moves(ni[..k])
  {
    var p := ni[..k];
    forall i, j | 0 <= i < j < |p| && p[i] >= 0 ensures p[i] != p[j] {
      assert p[i] == ni[i] && p[j] == ni[j];
    }
  }

  /** Every kept iteration lands at its new position, marked dirty when it
      moved. */
  lemma {:induction false} PlaceLands(ni: seq<int>, us: seq<Iteration>)
    requires |ni| == |us| && Moves(ni)
    ensures var r := Place(ni, us);
      forall i | 0 <= i < |ni| && ni[i] >= 0 :: ni[i] < |r| && r[ni[i]] == Some(Moved(us[i], i, ni[i]))
    decreases |ni|
  {
    if |ni| > 0 {
      var last := |ni| - 1;
      var ni0 := ni[..last];
      var us0 := us[..last];
      MovesPrefix(ni, last);
      PlaceLands(ni0, us0);
      var acc := Place(ni0, us0);
      var r := Place(ni, us);
      forall i | 0 <= i < |ni| && ni[i] >= 0 ensures ni[i] < |r| && r[ni[i]] == Some(Moved(us[i], i, ni[i])) {
        if i < last {
          assert ni0[i] == ni[i] && us0[i] == us[i];
          if ni[last] != -1 {
            assert ni[i] != ni[last];
          }
        }
      }
    }
  }

  /** A slot that no entry names stays a hole. */
  lemma {:induction false} PlaceHoles(ni: seq<int>, us: seq<Iteration>)
    requires |ni| == |us| && Moves(ni)
    ensures var r := Place(ni, us);
      forall j | 0 <= j < |r| && r[j].Some? :: Targeted(ni, j)
    decreases |ni|
  {
    if |ni| > 0 {
      var last := |ni| - 1;
      var ni0 := ni[..last];
      var us0 := us[..last];
      MovesPrefix(ni, last);
      PlaceHoles(ni0, us0);
      var acc := Place(ni0, us0);
      var r := Place(ni, us);
      assert r == if ni[last] == -1 then acc else Assign(acc, ni[last], Moved(us[last], last, ni[last]));
      forall k | 0 <= k < |r| && r[k].Some? ensures Targeted(ni, k) {
        if ni[last] == k {
          assert ni[last] == k;
        } else {
          assert k < |acc| && r[k] == acc[k];
          assert Targeted(ni0, k);
          var i :| 0 <= i < |ni0| && ni0[i] == k;
          assert ni[i] == k;
        }
      }
    }
  }

  /** The list ends at the largest new position: its last slot is filled. */
  lemma {:induction false} PlaceEnds(ni: seq<int>, us: seq<Iteration>)
    requires |ni| == |us| && Moves(ni)
    ensures var r := Place(ni, us); |r| > 0 ==> r[|r| - 1].Some?
    decreases |ni|
  {
    if |ni| > 0 {
      var last := |ni| - 1;
      MovesPrefix(ni, last);
      PlaceEnds(ni[..last], us[..last]);
    }
  }

  /** Shuffling a section with nothing pending records the permutation and
      a snapshot, moves the iterations as Place says, and only tells the
      owner: no child is rebound, created, removed or inserted. */
  lemma ShuffleRecords(b: Binder, ni: seq<int>)
    requires b.pending.None? && ShuffleInput(ni, b.iterations)
    ensures Shuffle(b, ni).Success?
    ensures var s := Shuffle(b, ni).value;
      var us := Units(b.iterations);
      var its := s.binder.iterations;
      && s.binder.pending == Some(ni)
      && s.binder.previous == b.iterations
      && (forall i | 0 <= i < |ni| && ni[i] >= 0 :: ni[i] < |its| && its[ni[i]] == Some(Moved(us[i], i, ni[i])))
      && (forall i | 0 <= i < |ni| && ni[i] >= 0 ::
            its[ni[i]].Some? && its[ni[i]].value.dirty == (us[i].dirty || ni[i] != i)
            && its[ni[i]].value.(dirty := us[i].dirty) == us[i])
      && (forall j | 0 <= j < |its| && its[j].Some? :: Targeted(ni, j))
      && Summarize(s.log) == Nothing.(bubbles := 1)
      && s.binder.nextId == b.nextId
      && s.binder.indexByKey == b.indexByKey
  {
    PlaceLands(ni, Units(b.iterations));
    PlaceHoles(ni, Units(b.iterations));
    SummarizeOne(Bubble);
  }

  /** A second shuffle before the first is completed throws, whatever its
      permutation. */
  lemma ShuffleTwiceFails(b: Binder, ni: seq<int>, again: seq<int>)
    requires b.pending.None? && ShuffleInput(ni, b.iterations)
    ensures Shuffle(b, ni).Success?
    ensures Shuffle(Shuffle(b, ni).value.binder, again) == Failure(AlreadyShuffled)
  {
  }

  /** The rotation [2, 0, 1] on [a, b, c] gives [b, c, a]: the same
      instances, each marked dirty because each moved. */
  lemma ShuffleRotates(b: Binder, x: Iteration, y: Iteration, z: Iteration)
    requires b.pending.None? && b.iterations == [Some(x), Some(y), Some(z)]
    ensures Shuffle(b, [2, 0, 1]).Success?
    ensures var s := Shuffle(b, [2, 0, 1]).value;
      && s.binder.iterations == [Some(y.(dirty := true)), Some(z.(dirty := true)), Some(x.(dirty := true))]
      && s.binder.previous == b.iterations
      && s.binder.pending == Some([2, 0, 1])
      && s.log == [Bubble]
  {
    var ni := [2, 0, 1];
    assert ShuffleInput(ni, b.iterations);
    var us := Units(b.iterations);
    assert us == [x, y, z];
    assert ni[..2] == [2, 0] && ni[..1] == [2] && us[..2] == [x, y] && us[..1] == [x];
    var p1 := Place([2], [x]);
    assert p1 == Assign(Place([], []), 2, Moved(x, 0, 2));
    assert p1 == [None, None, Some(x.(dirty := true))];
    var p2 := Place([2, 0], [x, y]);
    assert p2 == Assign(p1, 0, Moved(y, 1, 0));
    var p3 := Place(ni, us);
    assert p3 == Assign(p2, 1, Moved(z, 2, 1));
  }
}

=== FILE: unique_proofs.dfy ===
/** Uniqueness: no identity is live twice, in the list or in the snapshot.
    Every operation keeps this, given the identity invariant of
    NumberingProofs, so completing a shuffle destroys each removed
    snapshot iteration exactly once and rebinds each kept one exactly
    once. */
module UniqueProofs {
  import opened Wrappers
  import opened Collection
  import opened Effects
  import opened RepeatedFragment
  import opened UpdateProofs
  import opened ShuffleProofs
  import opened CompletionProofs
  import opened NumberingProofs

  /** No two live entries of the list share an identity. */
  predicate UniqueIn(its: seq<Option<Iteration>>) {
    forall j1, j2 | 0 <= j1 < j2 < |its| && its[j1].Some? && its[j2].Some? :: its[j1].value.id != its[j2].value.id
  }

  predicate UniqueIds(b: Binder) {
    UniqueIn(b.iterations) && UniqueIn(b.previous)
  }

  lemma UnitsUnique(its: seq<Option<Iteration>>)
    requires Dense(its) && UniqueIn(its)
    ensures Distinct(Ids(Units(its)))
  {
    var us := Units(its);
    forall i, j | 0 <= i < j < |us| ensures Ids(us)[i] != Ids(us)[j] {
      assert its[i] == Some(us[i]) && its[j] == Some(us[j]);
    }
  }

  lemma SomesUnique(us: seq<Iteration>)
    requires Distinct(Ids(us))
    ensures UniqueIn(Somes(us))
  {
    var its := Somes(us);
    forall j1, j2 | 0 <= j1 < j2 < |its| && its[j1].Some? && its[j2].Some? ensures its[j1].value.id != its[j2].value.id {
      assert Ids(us)[j1] != Ids(us)[j2];
    }
  }

  /** Iterations created in one go have consecutive, hence different,
      identities. */
  lemma RunUnique(b: Binder, run: seq<Iteration>)
    requires forall k | 0 <= k < |run| :: run[k].id == b.nextId + k
    ensures Distinct(Ids(run))
  {
  }

  /** A list of old identities, all below n, followed by a list of new
      ones, none below n, has no identity twice. */
  lemma UniqueAppend(a: seq<Option<Iteration>>, c: seq<Option<Iteration>>, n: nat)
    requires UniqueIn(a) && IdsBelow(a, n) && UniqueIn(c)
    requires forall j | 0 <= j < |c| && c[j].Some? :: c[j].value.id >= n
    ensures UniqueIn(a + c)
  {
    var r := a + c;
    forall j1, j2 | 0 <= j1 < j2 < |r| && r[j1].Some? && r[j2].Some? ensures r[j1].value.id != r[j2].value.id {
      if j2 < |a| {
        assert r[j1] == a[j1] && r[j2] == a[j2];
      } else if j1 < |a| {
        assert r[j1] == a[j1] && r[j2] == c[j2 - |a|];
      } else {
        assert r[j1] == c[j1 - |a|] && r[j2] == c[j2 - |a|];
      }
    }
  }

  lemma BindUnique(b: Binder, v: Value)
    requires UniqueIds(b)
    ensures UniqueIds(Bind(b, v).binder)
  {
    match v
    case Arr(n) =>
      var run := ArrayRun(b, 0, n);
      RunUnique(b, run);
      SomesUnique(run);
    case Obj(keys) =>
      var run := KeyRun(ObjectAliases(b), keys, 0);
      RunUnique(b, run);
      SomesUnique(run);
    case Other =>
  }

  lemma UpdateArrayUnique(b: Binder, n: nat)
    requires Numbered(b) && UniqueIds(b)
    ensures UniqueIds(UpdateArray(b, n).binder)
  {
    var m := |b.iterations|;
    ArrayList(b, n);
    if m <= n {
      var run := ArrayRun(b, m, n - m);
      RunUnique(b, run);
      SomesUnique(run);
      UniqueAppend(b.iterations, Somes(run), b.nextId);
    }
  }

  /** The survivors of an object update are iterations of the list, and
      keep their identities apart. */
  lemma {:induction false} SurvivorsUnique(us: seq<Iteration>, keys: seq<string>)
    requires Distinct(Ids(us))
    ensures Distinct(Ids(Survivors(us, keys)))
    ensures forall u | u in Survivors(us, keys) :: u in us
    decreases |us|
  {
    if |us| > 0 {
      var init := us[..|us| - 1];
      var last := us[|us| - 1];
      assert Distinct(Ids(init)) by {
        forall i, j | 0 <= i < j < |init| ensures Ids(init)[i] != Ids(init)[j] {
          assert Ids(us)[i] != Ids(us)[j];
        }
      }
      SurvivorsUnique(init, keys);
      var s0 := Survivors(init, keys);
      if HasKey(keys, last.key) {
        var s := s0 + [last];
        assert Survivors(us, keys) == s;
        forall i, j | 0 <= i < j < |s| ensures Ids(s)[i] != Ids(s)[j] {
          if j < |s0| {
            assert Ids(s0)[i] != Ids(s0)[j];
          } else {
            assert s[i] in init;
            var k :| 0 <= k < |init| && init[k] == s[i];
            assert Ids(us)[k] != Ids(us)[|us| - 1];
          }
        }
      }
    }
  }

  lemma UpdateKeyedUnique(b: Binder, keys: seq<string>)
    requires Numbered(b) && UniqueIds(b) && Dense(b.iterations)
    ensures UniqueIds(UpdateKeyed(b, keys).binder)
  {
    var us := Units(b.iterations);
    var kept := Survivors(us, keys);
    UnitsUnique(b.iterations);
    SurvivorsUnique(us, keys);
    SomesUnique(kept);
    assert IdsBelow(Somes(kept), b.nextId) by {
      forall i | 0 <= i < |kept| ensures kept[i].id < b.nextId {
        assert kept[i] in kept;
        var k :| 0 <= k < |us| && us[k] == kept[i];
        assert b.iterations[k] == Some(us[k]);
      }
    }
    if |keys| > |kept| {
      var run := KeyRun(b, NewKeys(keys, NameSet(kept)), |kept|);
      RunUnique(b, run);
      SomesUnique(run);
      UniqueAppend(Somes(kept), Somes(run), b.nextId);
      assert Somes(kept + run) == Somes(kept) + Somes(run);
    }
  }

  lemma UpdateOtherUnique(b: Binder)
    requires UniqueIds(b)
    ensures UniqueIds(UpdateOther(b).binder)
  {
  }

  lemma ShuffleUnique(b: Binder, ni: seq<int>)
    requires UniqueIds(b) && b.pending.None? && ShuffleInput(ni, b.iterations)
    ensures Shuffle(b, ni).Success? && UniqueIds(Shuffle(b, ni).value.binder)
  {
    var us := Units(b.iterations);
    assert Shuffle(b, ni).value.binder.iterations == Place(ni, us);
    assert Moves(ni);
    UnitsUnique(b.iterations);
    PlaceUnique(ni, us);
  }

  /** Each slot of the placed list holds the iteration of one entry, a
      different entry per slot. */
  lemma PlaceUnique(ni: seq<int>, us: seq<Iteration>)
    requires |ni| == |us| && Moves(ni) && Distinct(Ids(us))
    ensures UniqueIn(Place(ni, us))
  {
    var its := Place(ni, us);
    PlaceLands(ni, us);
    PlaceHoles(ni, us);
    forall j1, j2 | 0 <= j1 < j2 < |its| && its[j1].Some? && its[j2].Some? ensures its[j1].value.id != its[j2].value.id {
      assert Targeted(ni, j1) && Targeted(ni, j2);
      var i1 :| 0 <= i1 < |ni| && ni[i1] == j1;
      var i2 :| 0 <= i2 < |ni| && ni[i2] == j2;
      assert its[j1].value.id == Ids(us)[i1] && its[j2].value.id == Ids(us)[i2];
    }
  }

  /** Later holes get later identities. */
  lemma {:induction false} HoleCountGrows(orig: seq<Option<Iteration>>, j1: nat, j2: nat)
    requires j1 < j2 && Hole(orig, j1)
    ensures HoleCount(orig, j1) < HoleCount(orig, j2)
    decreases j2
  {
    if j2 > j1 + 1 {
      HoleCountGrows(orig, j1, j2 - 1);
    }
  }

  lemma CompletionUnique(b: Binder, value: Value)
    requires Numbered(b) && UniqueIds(b)
    requires b.pending.Some? && PendingInput(b.pending.value, b.previous)
    ensures UniqueIds(UpdatePostShuffle(b, value).binder)
  {
    var s := UpdatePostShuffle(b, value);
    var its := b.iterations;
    var r := s.binder.iterations;
    var len := ArrayLength(value);
    CompletionList(b, value);
    CompletionHoles(b, value);
    assert s.binder.previous == b.previous;
    forall j1, j2 | 0 <= j1 < j2 < |r| && r[j1].Some? && r[j2].Some? ensures r[j1].value.id != r[j2].value.id {
      var new1 := j1 < len && Hole(its, j1);
      var new2 := j2 < len && Hole(its, j2);
      if new1 && new2 {
        HoleCountGrows(its, j1, j2);
      } else if new1 {
        assert r[j2] == its[j2];
      } else if new2 {
        assert r[j1] == its[j1];
      } else {
        assert r[j1] == its[j1] && r[j2] == its[j2];
      }
    }
  }

  /** No identity is rebound twice, to whatever positions. */
  predicate RebindsOnce(rb: seq<(nat, nat)>) {
    forall k1, k2 | 0 <= k1 < k2 < |rb| :: rb[k1].0 != rb[k2].0
  }

  /** With distinct snapshot identities, retiring destroys and rebinds
      each snapshot iteration at most once. */
  lemma {:induction false} RetireOnce(ni: seq<int>, prev: seq<Iteration>)
    requires |ni| == |prev| && forall i | 0 <= i < |ni| :: ni[i] >= -1
    requires Distinct(Ids(prev))
    ensures Distinct(Summarize(Retire(ni, prev)).destroyed)
    ensures Distinct(Summarize(Retire(ni, prev)).rebound)
    ensures RebindsOnce(Summarize(Retire(ni, prev)).rebound)
    decreases |ni|
  {
    if |ni| == 0 {
      assert Retire(ni, prev) == [];
    } else {
      var tl := prev[1..];
      assert Ids(tl) == Ids(prev)[1..];
      DistinctTail(Ids(prev));
      RetireOnce(ni[1..], tl);
      RetireCons(ni, prev);
      RetireDestroys(ni[1..], tl);
      RetireRebinds(ni[1..], tl);
      var rest := Summarize(Retire(ni[1..], tl));
      if ni[0] == -1 {
        assert prev[0].id !in rest.destroyed;
        DistinctCons(prev[0].id, rest.destroyed);
      } else {
        var p := (prev[0].id, ni[0] as nat);
        assert p !in rest.rebound;
        DistinctCons(p, rest.rebound);
      }
    }
    RetireRebindsOnce(ni, prev);
  }

  /** Putting a pair before a list that never rebinds its identity. */
  lemma RebindsOnceCons(p: (nat, nat), rb: seq<(nat, nat)>)
    requires RebindsOnce(rb) && forall k | 0 <= k < |rb| :: rb[k].0 != p.0
    ensures RebindsOnce([p] + rb)
  {
    var r := [p] + rb;
    forall k1, k2 | 0 <= k1 < k2 < |r| ensures r[k1].0 != r[k2].0 {
      assert r[k2] == rb[k2 - 1];
      if k1 > 0 {
        assert r[k1] == rb[k1 - 1];
      }
    }
  }

  /** Retiring rebinds each snapshot identity at most once, because each
      snapshot entry gives at most one event. */
  lemma {:induction false} RetireRebindsOnce(ni: seq<int>, prev: seq<Iteration>)
    requires |ni| == |prev| && forall i | 0 <= i < |ni| :: ni[i] >= -1
    requires Distinct(Ids(prev))
    ensures RebindsOnce(Summarize(Retire(ni, prev)).rebound)
    decreases |ni|
  {
    if |ni| == 0 {
      assert Retire(ni, prev) == [];
    } else {
      var tl := prev[1..];
      assert Ids(tl) == Ids(prev)[1..];
      DistinctTail(Ids(prev));
      RetireRebindsOnce(ni[1..], tl);
      RetireCons(ni, prev);
      if ni[0] >= 0 {
        var rest := Summarize(Retire(ni[1..], tl)).rebound;
        RetireRebinds(ni[1..], tl);
        forall k | 0 <= k < |rest| ensures rest[k].0 != prev[0].id {
          assert rest[k] in rest;
          assert MovedAt(ni[1..], tl, rest[k]);
          var i :| 0 <= i < |tl| && ni[1..][i] >= 0 && rest[k] == (tl[i].id, ni[1..][i] as nat);
          assert Ids(prev)[0] != Ids(prev)[i + 1];
        }
        RebindsOnceCons((prev[0].id, ni[0] as nat), rest);
      }
    }
  }

  /** Completion touches each iteration once: with distinct snapshot
      identities no iteration is destroyed twice or rebound twice, even to
      different positions, and no identity is created twice. */
  lemma CompletionOnce(b: Binder, value: Value)
    requires UniqueIds(b)
    requires b.pending.Some? && PendingInput(b.pending.value, b.previous)
    ensures var sum := Summarize(UpdatePostShuffle(b, value).log);
      Distinct(sum.destroyed) && Distinct(sum.rebound) && RebindsOnce(sum.rebound) && Distinct(sum.created)
  {
    CompletionLog(b, value);
    UnitsUnique(b.previous);
    RetireOnce(b.pending.value, Units(b.previous));
  }
}

=== FILE: update_proofs.dfy ===
/** What update does when no shuffle is pending. */
module UpdateProofs {
  import opened Wrappers
  import opened Collection
  import opened Effects
  import opened RepeatedFragment
  import opened LogFacts

  // ---------------------------------------------------------------------
  // Array value

  /** An array shorter than the list keeps exactly the first `n`
      iterations, the same instances, and removes each of the others
      once, in position order; nothing is created or inserted. */
  lemma UpdateArrayShrink(b: Binder, n: nat)
    requires n < |b.iterations|
    ensures var s := UpdateArray(b, n);
      && s.binder.iterations == b.iterations[..n]
      && Summarize(s.log) == Nothing.(destroyed := LiveIds(b.iterations[n..]),
                                       refreshed := LiveIds(b.iterations[..n]))
      && s.binder.nextId == b.nextId && s.binder.pending == b.pending
  {
    SummarizeHead(LiveIds(b.iterations[n..]), LiveIds(b.iterations[..n]));
  }

  /** The growing array branch in terms of its parts. */
  lemma ArrayGrowShape(b: Binder, n: nat)
    requires |b.iterations| <= n
    ensures var s := UpdateArray(b, n); var m := |b.iterations|;
      var run := ArrayRun(b, m, n - m);
      && s.binder == b.(iterations := b.iterations + Somes(run), nextId := b.nextId + (n - m))
      && Summarize(s.log) == Nothing.(refreshed := LiveIds(b.iterations), created := Ids(run),
                                      inserts := if n > m then [(Ids(run), ParentNextAfterSelf)] else [])
  {
    var m := |b.iterations|;
    var s := UpdateArray(b, n);
    var run := ArrayRun(b, m, n - m);
    assert LiveIds([]) == [];
    if n > m {
      assert s.log == DestroyAll([]) + RefreshAll(LiveIds(b.iterations)) + CreateEvents(run)
                      + [Insert(Ids(run), ParentNextAfterSelf)];
      SummarizeGrow([], LiveIds(b.iterations), run, ParentNextAfterSelf);
    } else {
      assert s.log == DestroyAll([]) + RefreshAll(LiveIds(b.iterations));
      SummarizeHead([], LiveIds(b.iterations));
      assert b.iterations + Somes(run) == b.iterations;
    }
  }

  /** An array at least as long as the list keeps every iteration and
      appends one new iteration per new position, with key and index
      equal to that position; their output goes in one insert before the
      node that follows the section, and only when there is any. */
  lemma UpdateArrayGrow(b: Binder, n: nat)
    requires |b.iterations| <= n
    ensures var s := UpdateArray(b, n); var m := |b.iterations|;
      && |s.binder.iterations| == n
      && s.binder.iterations[..m] == b.iterations
      && s.binder.iterations[m..] == Somes(ArrayRun(b, m, n - m))
      && Summarize(s.log).destroyed == []
      && Summarize(s.log).refreshed == LiveIds(b.iterations)
      && Summarize(s.log).created == Range(b.nextId, n - m)
      && Summarize(s.log).inserts == (if n > m then [(Range(b.nextId, n - m), ParentNextAfterSelf)] else [])
      && s.binder.nextId == b.nextId + (n - m) && s.binder.pending == b.pending
  {
    var m := |b.iterations|;
    ArrayList(b, n);
    SplitAppend(b.iterations, Somes(ArrayRun(b, m, n - m)));
    GrowLog(b, n);
  }

  /** The growing array branch's effects and counters. */
  lemma GrowLog(b: Binder, n: nat)
    requires |b.iterations| <= n
    ensures var s := UpdateArray(b, n); var m := |b.iterations|;
      && Summarize(s.log).destroyed == []
      && Summarize(s.log).refreshed == LiveIds(b.iterations)
      && Summarize(s.log).created == Range(b.nextId, n - m)
      && Summarize(s.log).inserts == (if n > m then [(Range(b.nextId, n - m), ParentNextAfterSelf)] else [])
      && s.binder.nextId == b.nextId + (n - m) && s.binder.pending == b.pending
  {
    var m := |b.iterations|;
    ArrayGrowShape(b, n);
    IdsArrayRun(b, m, n - m);
    GrowFields(Summarize(UpdateArray(b, n).log), LiveIds(b.iterations), Ids(ArrayRun(b, m, n - m)),
               Range(b.nextId, n - m), n > m);
  }

  /** The fields of a refresh-create-insert summary. */
  lemma GrowFields(sum: Summary, live: seq<nat>, ids: seq<nat>, r: seq<nat>, grow: bool)
    requires ids == r
    requires sum == Nothing.(refreshed := live, created := ids,
                             inserts := if grow then [(ids, ParentNextAfterSelf)] else [])
    ensures sum.destroyed == [] && sum.refreshed == live && sum.created == r
    ensures sum.inserts == (if grow then [(r, ParentNextAfterSelf)] else [])
  {
  }

  /** An array update turns a list that mirrors some array into one that
      mirrors the new array. */
  lemma UpdateArrayMirrors(b: Binder, m: nat, n: nat)
    requires Mirrors(b.iterations, Arr(m))
    ensures Mirrors(UpdateArray(b, n).binder.iterations, Arr(n))
  {
    ArrayList(b, n);
    if n < m {
      MirrorsPrefix(b.iterations, m, n);
    } else {
      RunStamped(b, m, n - m);
      MirrorsAppend(b.iterations, Somes(ArrayRun(b, m, n - m)), m, n);
    }
  }

  /** The list an array update leaves. */
  lemma ArrayList(b: Binder, n: nat)
    ensures var m := |b.iterations|; var its := UpdateArray(b, n).binder.iterations;
      && (n < m ==> its == b.iterations[..n])
      && (m <= n ==> its == b.iterations + Somes(ArrayRun(b, m, n - m)))
  {
    if n == |b.iterations| {
      assert b.iterations + Somes(ArrayRun(b, n, 0)) == b.iterations;
    }
  }

  lemma MirrorsPrefix(its: seq<Option<Iteration>>, m: nat, n: nat)
    requires Mirrors(its, Arr(m)) && n <= m
    ensures Mirrors(its[..n], Arr(n))
  {
    forall i | 0 <= i < n ensures its[..n][i] == its[i] {
      assert its[..n][i] == its[i];
    }
  }

  /** Iterations stamped with positions m, m+1, ... extend a mirror of
      an array of length m. */
  lemma MirrorsAppend(a: seq<Option<Iteration>>, c: seq<Option<Iteration>>, m: nat, n: nat)
    requires Mirrors(a, Arr(m)) && m <= n && |c| == n - m
    requires forall k | 0 <= k < |c| :: c[k].Some? && c[k].value.key == Index(m + k) && c[k].value.index == m + k
    ensures Mirrors(a + c, Arr(n))
  {
    forall i | 0 <= i < n ensures (a + c)[i].Some? && (a + c)[i].value.key == Index(i) && (a + c)[i].value.index == i {
      if i >= m {
        assert (a + c)[i] == c[i - m];
      }
    }
  }

  lemma RunStamped(b: Binder, start: nat, count: nat)
    ensures var c := Somes(ArrayRun(b, start, count));
      forall k | 0 <= k < count :: c[k].Some? && c[k].value.key == Index(start + k) && c[k].value.index == start + k
  {
  }

  // ---------------------------------------------------------------------
  // Any other value

  /** A value that is neither array nor object removes every iteration,
      each once, in position order, and creates and inserts nothing. */
  lemma UpdateOtherRemovesAll(b: Binder)
    ensures var s := UpdateOther(b);
      && s.binder.iterations == []
      && Summarize(s.log) == Nothing.(destroyed := LiveIds(b.iterations))
      && s.binder.nextId == b.nextId
  {
    SummarizeDestroyAll(LiveIds(b.iterations));
  }

  // ---------------------------------------------------------------------
  // Object value

  lemma SurvivorsPartition(us: seq<Iteration>, keys: seq<string>)
    ensures forall u | u in Survivors(us, keys) :: HasKey(keys, u.key)
    ensures forall u | u in Removed(us, keys) :: !HasKey(keys, u.key)
    ensures multiset(Survivors(us, keys)) + multiset(Removed(us, keys)) == multiset(us)
  {
    SurvivorsKept(us, keys);
    RemovedGone(us, keys);
    SurvivorsCount(us, keys);
  }

  lemma {:induction false} SurvivorsKept(us: seq<Iteration>, keys: seq<string>)
    ensures forall u | u in Survivors(us, keys) :: HasKey(keys, u.key)
    decreases |us|
  {
    if |us| > 0 {
      SurvivorsKept(us[..|us| - 1], keys);
    }
  }

  lemma {:induction false} RemovedGone(us: seq<Iteration>, keys: seq<string>)
    ensures forall u | u in Removed(us, keys) :: !HasKey(keys, u.key)
    decreases |us|
  {
    if |us| > 0 {
      RemovedGone(us[..|us| - 1], keys);
    }
  }

  lemma {:induction false} SurvivorsCount(us: seq<Iteration>, keys: seq<string>)
    ensures multiset(Survivors(us, keys)) + multiset(Removed(us, keys)) == multiset(us)
    decreases |us|
  {
    if |us| > 0 {
      var init := us[..|us| - 1];
      var last := us[|us| - 1];
      SurvivorsCount(init, keys);
      assert us == init + [last];
      assert multiset(us) == multiset(init) + multiset{last};
      if HasKey(keys, last.key) {
        assert multiset(Survivors(us, keys)) == multiset(Survivors(init, keys)) + multiset{last};
        assert Removed(us, keys) == Removed(init, keys);
      } else {
        assert Survivors(us, keys) == Survivors(init, keys);
        assert multiset(Removed(us, keys)) == multiset{last} + multiset(Removed(init, keys));
      }
    }
  }

  /** The survivors of a list are the survivors of any prefix followed by
      those of the rest: the scan keeps relative order. */
  lemma {:induction false} SurvivorsSplit(us: seq<Iteration>, k: nat, keys: seq<string>)
    requires k <= |us|
    ensures Survivors(us, keys) == Survivors(us[..k], keys) + Survivors(us[k..], keys)
    decreases |us|
  {
    if k == |us| {
      assert us[..k] == us;
      assert Survivors(us[k..], keys) == [];
    } else {
      var init := us[..|us| - 1];
      SurvivorsSplit(init, k, keys);
      assert init[..k] == us[..k];
      var tail := us[k..];
      assert tail[..|tail| - 1] == init[k..];
      assert tail[|tail| - 1] == us[|us| - 1];
    }
  }

  /** When every key is still present nothing is removed. */
  lemma {:induction false} SurvivorsAll(us: seq<Iteration>, keys: seq<string>)
    requires forall u | u in us :: HasKey(keys, u.key)
    ensures Survivors(us, keys) == us && Removed(us, keys) == []
    decreases |us|
  {
    if |us| > 0 {
      var init := us[..|us| - 1];
      SurvivorsAll(init, keys);
      assert us == init + [us[|us| - 1]];
    }
  }

  /** A key is new exactly when it is listed and not taken. */
  lemma {:induction false} NewKeysMembers(keys: seq<string>, taken: set<string>)
    ensures forall x :: x in NewKeys(keys, taken) <==> x in keys && x !in taken
    decreases |keys|
  {
    if |keys| > 0 {
      NewKeysMembers(keys[1..], taken);
      assert keys == [keys[0]] + keys[1..];
    }
  }

  /** Distinct keys give distinct new keys. */
  lemma {:induction false} NewKeysDistinct(keys: seq<string>, taken: set<string>)
    requires Distinct(keys)
    ensures Distinct(NewKeys(keys, taken))
    decreases |keys|
  {
    if |keys| > 0 {
      var tail := keys[1..];
      DistinctTail(keys);
      NewKeysDistinct(tail, taken);
      NewKeysMembers(tail, taken);
      if keys[0] !in taken {
        DistinctCons(keys[0], NewKeys(tail, taken));
      }
    }
  }

  lemma NewKeysSpec(keys: seq<string>, taken: set<string>)
    ensures forall x :: x in NewKeys(keys, taken) <==> x in keys && x !in taken
    ensures Distinct(keys) ==> Distinct(NewKeys(keys, taken))
  {
    NewKeysMembers(keys, taken);
    if Distinct(keys) {
      NewKeysDistinct(keys, taken);
    }
  }

  /** The object branch in terms of its parts. */
  lemma KeyedShape(b: Binder, keys: seq<string>)
    requires Dense(b.iterations)
    ensures var s := UpdateKeyed(b, keys);
      var kept := Survivors(Units(b.iterations), keys);
      var gone := Removed(Units(b.iterations), keys);
      var run := if |keys| > |kept| then KeyRun(b, NewKeys(keys, NameSet(kept)), |kept|) else [];
      && s.binder.iterations == Somes(kept + run)
      && s.binder.nextId == b.nextId + |run|
      && s.binder.indexByKey == b.indexByKey
      && Summarize(s.log) == Nothing.(destroyed := Ids(gone), refreshed := Ids(kept), created := Ids(run),
                                      inserts := if |keys| > |kept| then [(Ids(run), ParentNextAfterSelf)] else [])
  {
    var us := Units(b.iterations);
    var kept := Survivors(us, keys);
    var gone := Removed(us, keys);
    if |keys| > |kept| {
      var run := KeyRun(b, NewKeys(keys, NameSet(kept)), |kept|);
      SummarizeGrow(Ids(gone), Ids(kept), run, ParentNextAfterSelf);
    } else {
      SummarizeHead(Ids(gone), Ids(kept));
      assert kept + [] == kept;
    }
  }

  /** An object update removes exactly the iterations whose key is gone,
      each once, last position first, and keeps the others, in their
      order, as the same instances with their `index` untouched. */
  lemma UpdateKeyedRemoves(b: Binder, keys: seq<string>)
    requires Dense(b.iterations)
    ensures var s := UpdateKeyed(b, keys);
      var us := Units(b.iterations);
      var kept := Survivors(us, keys);
      var gone := Removed(us, keys);
      && (forall u | u in kept :: HasKey(keys, u.key))
      && (forall u | u in gone :: !HasKey(keys, u.key))
      && multiset(kept) + multiset(gone) == multiset(us)
      && Dense(s.binder.iterations)
      && Units(s.binder.iterations)[..|kept|] == kept
      && Summarize(s.log).destroyed == Ids(gone)
      && Summarize(s.log).refreshed == Ids(kept)
      && s.binder.indexByKey == b.indexByKey
  {
    var us := Units(b.iterations);
    var kept := Survivors(us, keys);
    SurvivorsPartition(us, keys);
    KeyedShape(b, keys);
    var run := if |keys| > |kept| then KeyRun(b, NewKeys(keys, NameSet(kept)), |kept|) else [];
    assert Units(Somes(kept + run)) == kept + run;
    assert (kept + run)[..|kept|] == kept;
  }

  /** After the removals, an object update appends, from the surviving
      count upward, one new iteration per key that no survivor has, in
      key order, and inserts their output together before the node that
      follows the section. When the survivors already number as many as
      the keys, nothing is appended or inserted. */
  lemma UpdateKeyedAppends(b: Binder, keys: seq<string>)
    requires Dense(b.iterations)
    ensures var s := UpdateKeyed(b, keys);
      var kept := Survivors(Units(b.iterations), keys);
      var added := if |keys| > |kept| then NewKeys(keys, NameSet(kept)) else [];
      && Dense(s.binder.iterations)
      && Units(s.binder.iterations) == kept + KeyRun(b, added, |kept|)
      && (forall x :: x in added ==> x in keys && x !in NameSet(kept))
      && (|keys| > |kept| ==> forall x | x in keys && x !in NameSet(kept) :: x in added)
      && Summarize(s.log).created == Range(b.nextId, |added|)
      && Summarize(s.log).inserts == (if |keys| > |kept| then [(Range(b.nextId, |added|), ParentNextAfterSelf)] else [])
      && s.binder.nextId == b.nextId + |added|
  {
    var kept := Survivors(Units(b.iterations), keys);
    NewKeysSpec(keys, NameSet(kept));
    KeyedAppendedUnits(b, keys);
    KeyedAppendedLog(b, keys);
  }

  lemma KeyedAppendedUnits(b: Binder, keys: seq<string>)
    requires Dense(b.iterations)
    ensures var s := UpdateKeyed(b, keys);
      var kept := Survivors(Units(b.iterations), keys);
      var added := if |keys| > |kept| then NewKeys(keys, NameSet(kept)) else [];
      && Dense(s.binder.iterations)
      && Units(s.binder.iterations) == kept + KeyRun(b, added, |kept|)
  {
    var kept := Survivors(Units(b.iterations), keys);
    KeyedShape(b, keys);
    var added := if |keys| > |kept| then NewKeys(keys, NameSet(kept)) else [];
    var run := KeyRun(b, added, |kept|);
    assert Units(Somes(kept + run)) == kept + run;
    if |keys| <= |kept| {
      assert run == [];
    }
  }

  lemma KeyedAppendedLog(b: Binder, keys: seq<string>)
    requires Dense(b.iterations)
    ensures var s := UpdateKeyed(b, keys);
      var kept := Survivors(Units(b.iterations), keys);
      var added := if |keys| > |kept| then NewKeys(keys, NameSet(kept)) else [];
      && Summarize(s.log).created == Range(b.nextId, |added|)
      && Summarize(s.log).inserts == (if |keys| > |kept| then [(Range(b.nextId, |added|), ParentNextAfterSelf)] else [])
      && s.binder.nextId == b.nextId + |added|
  {
    var kept := Survivors(Units(b.iterations), keys);
    KeyedShape(b, keys);
    var added := if |keys| > |kept| then NewKeys(keys, NameSet(kept)) else [];
    var run := KeyRun(b, added, |kept|);
    IdsKeyRun(b, added, |kept|);
    if |keys| <= |kept| {
      assert run == [];
    }
  }

  // ---------------------------------------------------------------------
  // Counting property names

  lemma {:induction false} NameSetCard(us: seq<Iteration>)
    ensures |NameSet(us)| <= |us|
    decreases |us|
  {
    if |us| > 0 {
      var init := us[..|us| - 1];
      NameSetCard(init);
      assert us == init + [us[|us| - 1]];
      assert NameSet(us) == NameSet(init) + {KeyName(us[|us| - 1].key)};
    }
  }

  lemma NameSetAppend(a: seq<Iteration>, c: seq<Iteration>)
    ensures NameSet(a + c) == NameSet(a) + NameSet(c)
  {
    forall x | x in NameSet(a + c) ensures x in NameSet(a) + NameSet(c) {
      var u :| u in a + c && KeyName(u.key) == x;
    }
  }

  /** The names a key run covers are the names it was given. */
  lemma NameSetKeyRun(b: Binder, names: seq<string>, start: nat)
    ensures NameSet(KeyRun(b, names, start)) == Elements(names)
  {
    var run := KeyRun(b, names, start);
    forall x | x in names ensures x in NameSet(run) {
      var k :| 0 <= k < |names| && names[k] == x;
      assert run[k] in run && KeyName(run[k].key) == x;
    }
  }

  /** After an object update the list holds an iteration for every key of
      the object and for no other name, and the first `|keys|` entries
      are enough to cover them all. */
  lemma UpdateKeyedCovers(b: Binder, keys: seq<string>)
    requires Dense(b.iterations)
    ensures var its := UpdateKeyed(b, keys).binder.iterations;
      && Dense(its)
      && NameSet(Units(its)) <= Elements(keys)
      && (|keys| > |Survivors(Units(b.iterations), keys)| ==> NameSet(Units(its)) == Elements(keys))
  {
    var us := Units(b.iterations);
    var kept := Survivors(us, keys);
    var added := if |keys| > |kept| then NewKeys(keys, NameSet(kept)) else [];
    KeyedAppendedUnits(b, keys);
    SurvivorsPartition(us, keys);
    NewKeysMembers(keys, NameSet(kept));
    NameSetKeyRun(b, added, |kept|);
    CoverNames(kept, KeyRun(b, added, |kept|), added, keys, |keys| > |kept|);
  }

  /** Survivors with listed keys, followed by iterations for listed new
      names, carry listed names only; and all of them, when every listed
      name a survivor lacks was added. */
  lemma CoverNames(kept: seq<Iteration>, run: seq<Iteration>, added: seq<string>, keys: seq<string>, full: bool)
    requires forall u | u in kept :: HasKey(keys, u.key)
    requires NameSet(run) == Elements(added)
    requires forall x | x in added :: x in keys
    requires full ==> forall x | x in keys && x !in NameSet(kept) :: x in added
    ensures NameSet(kept + run) <= Elements(keys)
    ensures full ==> NameSet(kept + run) == Elements(keys)
  {
    NameSetAppend(kept, run);
  }

  // ---------------------------------------------------------------------
  // Idempotence

  lemma SomesUnits(its: seq<Option<Iteration>>)
    requires Dense(its)
    ensures Somes(Units(its)) == its
  {
  }

  lemma IdempotentArray(b: Binder, n: nat)
    ensures var s1 := UpdateArray(b, n);
      var s2 := UpdateArray(s1.binder, n);
      && s2.binder.iterations == s1.binder.iterations
      && Summarize(s2.log).destroyed == []
      && Summarize(s2.log).created == []
      && Summarize(s2.log).inserts == []
  {
    var b1 := UpdateArray(b, n).binder;
    assert |b1.iterations| == n by {
        ArrayList(b, n);
    }
    UpdateArrayGrow(b1, n);
    assert b1.iterations[..n] == b1.iterations;
  }

  lemma IdempotentOther(b: Binder)
    ensures var s1 := UpdateOther(b);
      var s2 := UpdateOther(s1.binder);
      && s2.binder.iterations == s1.binder.iterations
      && s2.log == []
  {
    assert LiveIds([]) == [];
  }

  /** A list whose every key is in the object, and which is at least as
      long as the key list, is left as it is by an object update. */
  lemma KeyedStable(b: Binder, keys: seq<string>)
    requires Dense(b.iterations)
    requires forall u | u in Units(b.iterations) :: HasKey(keys, u.key)
    requires |keys| <= |b.iterations|
    ensures var s := UpdateKeyed(b, keys);
      && s.binder.iterations == b.iterations
      && Summarize(s.log) == Nothing.(refreshed := Ids(Units(b.iterations)))
  {
    var us := Units(b.iterations);
    SurvivorsAll(us, keys);
    KeyedShape(b, keys);
    assert Ids([]) == [];
    SomesUnits(b.iterations);
    assert us + [] == us;
  }

  /** After an object update with distinct keys, every iteration's key is
      in the object and there are at least as many iterations as keys. */
  lemma KeyedSettled(b: Binder, keys: seq<string>)
    requires Dense(b.iterations) && Distinct(keys)
    ensures var its := UpdateKeyed(b, keys).binder.iterations;
      && Dense(its)
      && (forall u | u in Units(its) :: HasKey(keys, u.key))
      && |keys| <= |its|
  {
    var its := UpdateKeyed(b, keys).binder.iterations;
    var kept := Survivors(Units(b.iterations), keys);
    KeyedAppendedUnits(b, keys);
    UpdateKeyedCovers(b, keys);
    var us1 := Units(its);
    forall u | u in us1 ensures HasKey(keys, u.key) {
      assert KeyName(u.key) in NameSet(us1);
    }
    if |keys| > |kept| {
      NameSetCard(us1);
      DistinctCard(keys);
      assert |NameSet(us1)| == |Elements(keys)|;
    } else {
      assert |KeyRun(b, [], |kept|)| == 0;
    }
  }

  lemma IdempotentKeyed(b: Binder, keys: seq<string>)
    requires Dense(b.iterations) && Distinct(keys)
    ensures var s1 := UpdateKeyed(b, keys);
      && Dense(s1.binder.iterations)
      && var s2 := UpdateKeyed(s1.binder, keys);
      && s2.binder.iterations == s1.binder.iterations
      && Summarize(s2.log).destroyed == []
      && Summarize(s2.log).created == []
      && Summarize(s2.log).inserts == []
  {
    KeyedSettled(b, keys);
    KeyedStable(UpdateKeyed(b, keys).binder, keys);
  }

  /** A second update with the same array or object value, and no shuffle
      pending, removes nothing, creates nothing and inserts nothing: it
      only refreshes the iterations, which stay as they were. */
  lemma UpdateIdempotent(b: Binder, v: Value)
    requires b.pending.None? && UpdateReady(b, v) && ValidValue(v)
    ensures var s1 := Update(b, v);
      && UpdateReady(s1.binder, v)
      && var s2 := Update(s1.binder, v);
      && s2.binder.iterations == s1.binder.iterations
      && Summarize(s2.log).destroyed == []
      && Summarize(s2.log).created == []
      && Summarize(s2.log).inserts == []
  {
    match v
    case Arr(n) =>
      IdempotentArray(b, n);
    case Other =>
      IdempotentOther(b);
    case Obj(keys) =>
      IdempotentKeyed(b, keys);
  }
}

=== FILE: wrappers.dfy ===
/** Option and Result, used for values JavaScript leaves undefined and for
    operations that throw. */
module Wrappers {

  datatype Option<+T> = None | Some(value: T)

  datatype Result<+R, +E> = Success(value: R) | Failure(error: E)
}
